=== FILE: README.md ===
# FinTrendAnalyser ingestion core, modelled in Dafny

FinTrendAnalyser pulls daily and intraday OHLCV bars, a daily SMA indicator and news from
third-party APIs into PostgreSQL. This project models the parts of it that make decisions:

- the **daily-bar fetcher**. For each symbol it reads the watermark, which is the latest stored
  datetime. It then chooses one of three plans: a full-history backfill, an incremental window
  `[watermark day + 1, today + 1)`, or nothing. Finally it offers the fetched bars to the store
  one row at a time (`DailySync`);
- the **intraday fetcher**. It picks `full` or `compact` output from the `--full-backfill` flag
  and the watermark. It stores one-minute bars and daily SMA points insert-or-ignore on
  `(symbol, datetime)`. A `ValueError` from the SMA call skips only the rest of that symbol
  (`IntradaySync`);
- **`insert_data` and `create_table_with_schema`**. These cover the SQL text they assemble, and
  their effect on a store whose price tables have the primary key `(symbol, datetime)`. Every
  database error is swallowed, and the model reads a rejected row as leaving the store as it
  was (`SqlText`, `Store`);
- the **news transformation**. It keeps, in order, the raw news rows where no field equals
  `"[Removed]"`, and appends them to the unconstrained processed news table (`NewsTransform`);
- the **table definitions**: schema names, column orders and key constraints (`Schema`).

`Observations` holds the provider record shapes and the tuples built from them. `Wrappers`
holds `Option`/`Result`.

A table is either `Keyed` or `Heap`. A `Keyed` table is a `map<(string, int), Row>` keyed by
`(symbol, datetime)`. A `Heap` table is a `seq<Row>` in insertion order and is used for tables
without constraints. An INSERT names its columns. The stored row puts each listed value under
the column of that name and fills the other columns with NULL. Timestamps are integer seconds,
and `DateOf(t) = t / 86400` is the calendar day.

Behaviour of the code that the model keeps as written:

- Only the SMA call is inside the `try`
  (fintrendanalyser/data_ingestion/fetch_intraday_stock_data.py:88-108). A `ValueError` from
  `get_intraday` escapes the loop and ends the run. `IntradaySync.SyncStocks` models this as
  `Aborted`.
- The incremental window ends at `today + 1`, exclusive, so today's bars are included.
- The fetcher skips whenever the watermark's date is not before today. This includes a
  watermark dated in the future, not only one dated today.
- The intraday watermark never bounds a time window. It only selects the output size.
- The news filter drops a row when any field equals the marker exactly. A field that only
  contains the marker does not count.

The daily fetcher passes no conflict clause, so a duplicate bar raises a key violation that
`insert_data` swallows. The model reads every swallowed error as a no-op on the store. Under
that reading, the store ends up the same as with `ON CONFLICT DO NOTHING`
(`Store.ClauseIrrelevant`, `Store.OfferAllClauseIrrelevant`). The real driver behaves
differently; "## Left out" says how.

## Model

| member | source | states |
|---|---|---|
| `SqlText.JoinAppend` | fintrendanalyser/utils/database.py:49-51 | Joining two non-empty lists with a separator is the two joins glued by that separator. |
| `SqlText.InsertStatement` | fintrendanalyser/utils/database.py:82-88 | The statement starts with `INSERT INTO schema.table (`. Without a truthy conflict clause it ends with the closing `)` of the placeholder list. With one it ends with a space and the clause. |
| `SqlText.CreateTableStatement` | fintrendanalyser/utils/database.py:52-53 | The script creates the schema first, then the table `schema.table`, and ends with `);`. |
| `SqlText.PlaceholdersShape` | fintrendanalyser/utils/database.py:83 | The placeholder text for n values is `%s` repeated n times with `, ` between: it has 4n-2 characters, character j is `"%s, "[j % 4]`, and it is empty for n = 0. |
| `SqlText.PlaceholderCount` | fintrendanalyser/utils/database.py:83 | The placeholder text for n values contains exactly n `%` signs. |
| `SqlText.InsertParameterCount` | fintrendanalyser/utils/database.py:82-92 | If no identifier, column name or clause contains `%`, the INSERT handed to the driver has exactly one parameter marker per value. |
| `SqlText.ConflictClauseAppended` | fintrendanalyser/utils/database.py:87-88 | A non-empty conflict clause is appended after one space. An empty clause leaves the statement unchanged, the same as a missing one. |
| `SqlText.TableDefinitionItems` | fintrendanalyser/utils/database.py:49-51 | The CREATE TABLE body is the `col type` items followed by the constraints, all joined by `, `. Without constraints, or with an empty list, only the column items remain. |
| `Schema.PriceTablesKeyed` | fintrendanalyser/utils/constants.py:28-64 | The historical, intraday and SMA tables each carry exactly one constraint, `PRIMARY KEY (symbol, datetime)`. Their first two columns are `symbol, datetime`. |
| `Schema.SmaKeyIsDate` | fintrendanalyser/utils/constants.py:56-64 | The SMA key column `datetime` is a DATE, and the SMA column order is `symbol, datetime, sma`. |
| `Schema.UnkeyedTables` | fintrendanalyser/utils/constants.py:4-26 | The news and economic tables declare no constraint, so they have no uniqueness key. |
| `Schema.BarTablesMatchTuples` | fintrendanalyser/utils/constants.py:29-51 | Both bar tables list the seven columns symbol, datetime, open, high, low, close, volume, in the order of the fetchers' 7-tuples. |
| `Store.Insert` | fintrendanalyser/utils/database.py:64-103 | A non-inserted row leaves the store unchanged. On a keyed table, a row is inserted iff the database accepts it and its key is absent, and then it is stored under that key. A present key yields `Ignored` with a clause and a swallowed key violation without one. An accepted row is appended to an unconstrained table. |
| `Store.InsertWellKeyed` | fintrendanalyser/utils/database.py:82-103 | An insert keeps every row of a keyed table under the key its own symbol and datetime columns give, so the map keys and the stored column values that `SELECT MAX(datetime)` reads agree. |
| `Store.InsertExtends` | fintrendanalyser/utils/database.py:90-103 | An insert never removes or rewrites a stored row and never lowers a symbol's watermark. |
| `Store.InsertIdempotent` | fintrendanalyser/utils/database.py:90-103 | On a keyed table, inserting the same row twice gives the same store as inserting it once. |
| `Store.ClauseIrrelevant` | fintrendanalyser/utils/database.py:87-103 | The store after an insert does not depend on the conflict clause. |
| `Store.Watermark` | fintrendanalyser/data_ingestion/fetch_historical_stock_data.py:48-49 | The watermark is `None` iff no stored key has the symbol. Otherwise it is a stored datetime of the symbol that is at least every other one, i.e. the maximum. |
| `Store.WatermarkMonotone` | fintrendanalyser/data_ingestion/fetch_historical_stock_data.py:48-49 | A store that only gained keys has, for every symbol, a watermark at least as high as before. |
| `Store.ArrangeIdentity` | fintrendanalyser/utils/database.py:82-92 | Values listed under the table's own distinct columns, in table order, are stored exactly as given. |
| `Store.OfferAll` | fintrendanalyser/data_ingestion/fetch_historical_stock_data.py:84-100 | Offering a batch row by row keeps every stored row. It counts at most one insert per row, and on a keyed table the row count grows by exactly the number inserted. |
| `Store.OfferAllCovers` | fintrendanalyser/data_ingestion/fetch_intraday_stock_data.py:70-86 | After a batch, every accepted row's key is present in the keyed table. |
| `Store.OfferAllNewKeys` | fintrendanalyser/data_ingestion/fetch_intraday_stock_data.py:70-86 | Every key a batch adds is the key of one of the offered rows. |
| `Store.OfferAllStoresRow` | fintrendanalyser/data_ingestion/fetch_intraday_stock_data.py:70-86 | A key the batch adds holds the first offered row with that key, arranged into the table's columns. Later offered rows with the same key do not replace it. |
| `Store.OfferAllWellKeyed` | fintrendanalyser/utils/database.py:82-103 | A whole batch of inserts keeps every row of a keyed table under its own key. |
| `Store.OfferAllPresent` | fintrendanalyser/data_ingestion/fetch_intraday_stock_data.py:70-86 | A batch whose accepted rows all have present keys leaves the store unchanged. |
| `Store.OfferAllIdempotent` | fintrendanalyser/data_ingestion/fetch_intraday_stock_data.py:70-86 | Re-offering the same batch to a keyed table adds nothing and overwrites nothing. |
| `Store.OfferAllClauseIrrelevant` | fintrendanalyser/utils/database.py:87-103 | A whole batch has the same effect and insert count with or without a conflict clause. |
| `Store.OfferAllAppends` | fintrendanalyser/data_processing/transform_financial_news.py:39-46 | On an unconstrained table, every accepted row of a batch is appended in order, and all of them count as inserted. |
| `Store.EmptyTable` | fintrendanalyser/utils/database.py:31-53 | A new table has the definition's column names. It is keyed iff the constraint list is truthy, it stores nothing, and it is well keyed. |
| `Store.CreateTable` | fintrendanalyser/utils/database.py:31-61 | After the DDL the schema and the table exist. Existing tables keep their rows, and the only table that can appear is the new, empty one. |
| `Store.CreateTableIdempotent` | fintrendanalyser/utils/database.py:53 | Running the IF NOT EXISTS DDL twice leaves the store as running it once. |
| `Observations.DateOfBounds` | fintrendanalyser/data_ingestion/fetch_historical_stock_data.py:66-68 | A timestamp lies between the first second of its calendar day and the first second of the next day. |
| `Observations.DateOf` | fintrendanalyser/data_ingestion/fetch_historical_stock_data.py:66 | `.date()` is the day number d with d·86400 <= t < (d+1)·86400, i.e. the floor day of the timestamp. |
| `Observations.BarRow` | fintrendanalyser/data_ingestion/fetch_historical_stock_data.py:85-93 | A bar tuple has as many values as the bar column list has columns. |
| `Observations.BarRows` | fintrendanalyser/data_ingestion/fetch_historical_stock_data.py:84-100 | A fetched batch yields one tuple per bar, in fetch order, each built with the loop's symbol. |
| `Observations.SmaRow` | fintrendanalyser/data_ingestion/fetch_intraday_stock_data.py:92-96 | An SMA tuple has as many values as the SMA column list. |
| `Observations.SmaRows` | fintrendanalyser/data_ingestion/fetch_intraday_stock_data.py:91-103 | A fetched SMA series yields one `(symbol, day, sma)` tuple per point, in fetch order, each with the loop symbol. |
| `Observations.RowKeyFromData` | fintrendanalyser/utils/database.py:90-92 | Whenever the database stores a row, its key is read from the listed `symbol` and `datetime` values. |
| `Observations.RowKeyOfListed` | fintrendanalyser/utils/database.py:90-92 | An accepted row with a text symbol and a timestamp or date `datetime` is stored under exactly that key. |
| `Observations.BarRowKey` | fintrendanalyser/data_ingestion/fetch_historical_stock_data.py:85-100 | A bar tuple is stored under (loop symbol, bar timestamp) iff the table has every bar column. No other key is possible. |
| `Observations.SmaRowKey` | fintrendanalyser/data_ingestion/fetch_intraday_stock_data.py:91-103 | An SMA tuple is stored under (loop symbol, calendar day of its index) iff the table has every SMA column. |
| `DailySync.PlanFetch` | fintrendanalyser/data_ingestion/fetch_historical_stock_data.py:55-81 | There are three plans, and each holds exactly under its own condition. Full history: flag set or no watermark. Window: no flag and watermark day before today. Skip: no flag and watermark day not before today. The conditions partition all inputs. A window runs from watermark day + 1 to today + 1. |
| `DailySync.WindowCoversMissingDays` | fintrendanalyser/data_ingestion/fetch_historical_stock_data.py:66-72 | A window holds day d iff watermark day < d <= today. It always contains today. Every timestamp whose day is inside it lies strictly after the watermark. |
| `DailySync.UpToDateSkips` | fintrendanalyser/data_ingestion/fetch_historical_stock_data.py:79-81 | With a watermark dated today or later and no flag, nothing is fetched. Only the flag can force a fetch then. |
| `DailySync.SyncSymbol` | fintrendanalyser/data_ingestion/fetch_historical_stock_data.py:44-101 | One iteration uses the planner on the stored watermark. A skip leaves the store untouched. Otherwise it fetches once, reports the fetched count, inserts no more rows than were fetched, and keeps every stored row. |
| `DailySync.SyncSymbolEffect` | fintrendanalyser/data_ingestion/fetch_historical_stock_data.py:44-101 | On the keyed table, an iteration only adds rows of its own symbol and leaves other symbols' rows alone. The row count grows by the reported insert count, and the symbol's watermark does not decrease. |
| `DailySync.SyncSymbolNewKeys` | fintrendanalyser/data_ingestion/fetch_historical_stock_data.py:84-100 | Every key an iteration adds is (symbol, timestamp) of a bar it fetched under the chosen plan. Nothing else is written. |
| `DailySync.SyncSymbolStoresFetched` | fintrendanalyser/data_ingestion/fetch_historical_stock_data.py:84-100 | When the table has the bar columns and the plan is not a skip, every fetched bar ends up stored under (symbol, bar timestamp), whether it was new or already there. |
| `DailySync.SyncSymbolStoresBars` | fintrendanalyser/data_ingestion/fetch_historical_stock_data.py:84-100 | On the historical table, which has exactly the bar columns, a fetched bar whose key was absent is stored afterwards as the 7-tuple `(symbol, timestamp, open, high, low, close, volume)` of the first fetched bar with that timestamp. |
| `DailySync.SyncStocks` | fintrendanalyser/data_ingestion/fetch_historical_stock_data.py:44-106 | The loop reports each listed symbol exactly once, in list order, and keeps every stored row. |
| `DailySync.SyncStocksEffect` | fintrendanalyser/data_ingestion/fetch_historical_stock_data.py:44-101 | Over a whole run no watermark decreases. On the keyed table only listed symbols gain rows. |
| `DailySync.WorkedExample` | fintrendanalyser/data_ingestion/fetch_historical_stock_data.py:55-81 | Watermark 2023-06-01 and today 2023-06-05 give the window [06-02, 06-06). A watermark of 06-04 gives [06-05, 06-06). A watermark of today gives a skip, and the flag gives full history. |
| `IntradaySync.RequestFor` | fintrendanalyser/data_ingestion/fetch_intraday_stock_data.py:59-67 | The interval is always `1min`. The flag forces `full`. Without the flag the output is `compact` iff the symbol already has a stored row. |
| `IntradaySync.FullOutputIffBackfill` | fintrendanalyser/data_ingestion/fetch_intraday_stock_data.py:59-67 | The intraday fetcher asks for full output exactly when the daily planner, given the same flag and watermark, would backfill the full history. |
| `IntradaySync.SyncSymbol` | fintrendanalyser/data_ingestion/fetch_intraday_stock_data.py:58-110 | An iteration raises iff the bar call fails. Otherwise both tables keep their rows, and the SMA step is rate-limited iff the SMA call fails, in which case the SMA table is untouched. |
| `IntradaySync.BarsWritten` | fintrendanalyser/data_ingestion/fetch_intraday_stock_data.py:69-86 | Whether or not the SMA call then fails, a completed iteration has offered every fetched bar to the intraday table, in fetch order, with `ON CONFLICT (symbol, datetime) DO NOTHING`. |
| `IntradaySync.BarsStored` | fintrendanalyser/data_ingestion/fetch_intraday_stock_data.py:69-86 | On the keyed intraday table with the bar columns, a completed iteration stores every fetched bar under (symbol, bar timestamp), and every key it adds belongs to the loop's symbol. |
| `IntradaySync.SmaFailureKeepsBars` | fintrendanalyser/data_ingestion/fetch_intraday_stock_data.py:88-108 | When the SMA call raises, the symbol's bars stay inserted exactly as offered and the SMA table is unchanged. The error is reported, not propagated. |
| `IntradaySync.SmaKeysPerDay` | fintrendanalyser/data_ingestion/fetch_intraday_stock_data.py:91-103 | On the keyed SMA table, every key an iteration adds is (symbol, calendar day of a fetched point). The table holds at most one row per symbol and day. |
| `IntradaySync.SmaDaysStored` | fintrendanalyser/data_ingestion/fetch_intraday_stock_data.py:91-103 | When the SMA table has the SMA columns and the SMA call succeeds, every fetched point's day is stored for the symbol. |
| `IntradaySync.SmaWritten` | fintrendanalyser/data_ingestion/fetch_intraday_stock_data.py:88-103 | When the SMA call succeeds, a completed iteration has offered every fetched point's `(symbol, day, sma)` tuple to the SMA table, in order, with the conflict clause. The report gives the fetched count and the inserted count. |
| `IntradaySync.SmaBatchStoresPoints` | fintrendanalyser/data_ingestion/fetch_intraday_stock_data.py:91-103 | On a table with exactly the SMA columns, a day whose key the batch adds holds `(symbol, day, sma)` of the first offered point of that day. |
| `IntradaySync.SmaStoresPoints` | fintrendanalyser/data_ingestion/fetch_intraday_stock_data.py:88-103 | On the SMA table, after a successful SMA call, a day whose key was absent holds `(symbol, day, sma)` of the first fetched point of that day. Later points of the same day do not replace it. |
| `IntradaySync.Advance` | fintrendanalyser/data_ingestion/fetch_intraday_stock_data.py:58-110 | One loop step. An aborted run stays as it is. Otherwise the step either appends the symbol's report and keeps earlier ones, or aborts at that symbol with the bar call's own error and no new report. No stored row is lost. |
| `IntradaySync.SyncStocks` | fintrendanalyser/data_ingestion/fetch_intraday_stock_data.py:58-110 | Symbols are visited in list order, at most once each. A finished run reports every symbol. An aborted run stops at the symbol it names. No stored row is lost. |
| `IntradaySync.SmaFailuresDoNotStopRun` | fintrendanalyser/data_ingestion/fetch_intraday_stock_data.py:58-108 | If the bar call never raises, the run finishes and visits every symbol, whatever the SMA call does. |
| `IntradaySync.AbortCause` | fintrendanalyser/data_ingestion/fetch_intraday_stock_data.py:59-67 | An aborted run was stopped by a failing bar call for the symbol it names, with that error. |
| `NewsTransform.KeepUnredacted` | fintrendanalyser/data_processing/transform_financial_news.py:34-36 | The output is no longer than the input. A row is in it iff it is an input row with no field equal to `"[Removed]"`. |
| `NewsTransform.Redacted` | fintrendanalyser/data_processing/transform_financial_news.py:35 | A row is redacted iff some field is a text whose whole value is `"[Removed]"`. |
| `NewsTransform.KeepAppend` | fintrendanalyser/data_processing/transform_financial_news.py:34-36 | Filtering distributes over concatenation, so kept rows keep their relative order. |
| `NewsTransform.KeepClean` | fintrendanalyser/data_processing/transform_financial_news.py:34-36 | Rows without the marker pass through unchanged. |
| `NewsTransform.KeepIdempotent` | fintrendanalyser/data_processing/transform_financial_news.py:34-36 | Filtering twice equals filtering once. |
| `NewsTransform.MarkerMatchesWholeFields` | fintrendanalyser/data_processing/transform_financial_news.py:35 | A field that only contains the marker inside a longer text keeps its row. A field equal to the marker drops it. |
| `NewsTransform.InsertProcessed` | fintrendanalyser/data_processing/transform_financial_news.py:39-46 | Inserting the kept rows keeps every processed row, with at most one insert per kept row. |
| `NewsTransform.NewsColumnsDistinct` | fintrendanalyser/utils/constants.py:18-26 | The news table has six distinct columns. |
| `NewsTransform.InsertProcessedAppends` | fintrendanalyser/data_processing/transform_financial_news.py:39-46 | Into the unconstrained processed table, the kept rows are appended once each, in order, as read. |
| `NewsTransform.RerunDuplicates` | fintrendanalyser/data_processing/transform_financial_news.py:39-46 | A second run appends the same kept rows again, because the table has no key to conflict on. |
| `NewsTransform.Transform` | fintrendanalyser/data_processing/transform_financial_news.py:18-46 | The processed table exists afterwards and is the only table that can be new. The schemas are the old ones plus `processed`. All other tables are unchanged, and the processed table keeps its earlier rows. |
| `NewsTransform.TransformAppends` | fintrendanalyser/data_processing/transform_financial_news.py:18-46 | When the processed table is missing or is the unconstrained news table, a run leaves it holding its earlier rows followed by the kept rows, in order. |
| `NewsTransform.TransformRerun` | fintrendanalyser/data_processing/transform_financial_news.py:18-46 | Running the transformation a second time on the same raw rows appends the kept rows again, so they are stored twice. |
| `NewsTransform.FirstTransform` | fintrendanalyser/data_processing/transform_financial_news.py:22-46 | On a store without the processed table, a run leaves exactly the kept rows there. |

## Left out

- Provider calls (`yfinance`, `alpha_vantage`) are function parameters. A `ValueError` becomes a `Failure(ApiError)`. `yfinance` is modelled as always returning a (possibly empty) list of bars.
- The raw news rows come from `SELECT * FROM raw.financial_news`. They are a parameter of `NewsTransform.Transform`, not read from the modelled catalog, and their order is taken as given.
- Connection set-up, `.env` loading, logging, the `exit()` on connection failure, and `commit`/`close` calls are not modelled.
- After a swallowed error, psycopg2 would reject later statements in the same transaction until a rollback. A failed insert is modelled as a no-op on the store instead.
- Store.OfferAllClauseIrrelevant: holds only under the no-op reading of a swallowed error. `insert_data` does not roll back after a failure (fintrendanalyser/utils/database.py:102-103). After the first duplicate bar of a symbol, every later insert of that symbol fails until the `conn.commit()` at fintrendanalyser/data_ingestion/fetch_historical_stock_data.py:101. A batch without a clause can therefore store far fewer rows than the same batch with `ON CONFLICT DO NOTHING`.
- DailySync.SyncSymbolStoresFetched: for the same reason, this holds only under the no-op reading. In the code, `--full-backfill` on a table that already holds the symbol's oldest bar stores no new bar at all, because that first bar is a duplicate.
- DailySync.SyncSymbolStoresBars: also holds only under the no-op reading of a swallowed error. In the code, a bar after the first duplicate of its symbol is not stored.
- Column types are not checked except the key columns: the symbol must be text and the datetime a timestamp or date. Prices and volumes are opaque values that nothing computes with.
- Store.Insert: the conflict clause text is not parsed. Any non-empty clause acts as `DO NOTHING` on the primary key. On a table without constraints it has no effect, whereas PostgreSQL would reject a conflict target with no matching constraint.
- Store.EmptyTable: the constraint text is never read. Any non-empty constraint list gives a table keyed on `(symbol, datetime)`. Every call site passes that primary key or nothing.
- Store.CreateTable: the DDL always succeeds. A malformed definition, such as constraints after an empty column map, which PostgreSQL would reject with the error swallowed, is not modelled. The statement text and its effect are modelled separately.
- Timezones and `.to_pydatetime()` are not modelled. `DateOf` is the UTC floor of the seconds count.
- The daily fetcher's `SELECT` names the table without its `raw` schema. The intraday scripts pass keyword names that `create_table_with_schema` and `insert_data` do not accept. The model treats each table kind as one table and models the intended calls.
- `MAX(datetime)` returns one row holding NULL when no row matches, so the `else None` branch of the result check is subsumed by the `None` watermark.
- DailySync.SyncSymbolEffect: "only the loop symbol gains rows" is stated for keyed tables only, which is how the historical table is created.
- The economic-data and news fetchers and the root-level print/plot scripts are not part of this model. Each is a single HTTP call and a tuple projection with no planning or keyed logic.
- There is no concurrency: every script runs its loop sequentially.

=== FILE: daily_sync.dfy ===
/** The daily-bar fetcher: per symbol, read the watermark, choose between a full-history
    backfill, an incremental window and nothing, and offer the fetched bars to the store. */
module DailySync {
  import opened Wrappers
  import opened Schema
  import opened Store
  import opened Observations

  /** What to ask the provider for. A window is `[start, end)` in day numbers. */
  datatype Plan = FullHistory | Window(start: int, end: int) | Skip

  /** The provider returns bars of day `d` for this plan's window. */
  predicate InWindow(p: Plan, d: int)
  {
    p.Window? && p.start <= d < p.end
  }

  /** The three-way choice made for each symbol. */
  function PlanFetch(fullBackfill: bool, watermark: Option<int>, today: int): (p: Plan)
    ensures p.FullHistory? <==> fullBackfill || watermark.None?
    ensures p.Window? <==> !fullBackfill && watermark.Some? && DateOf(watermark.value) < today
    ensures p.Skip? <==> !fullBackfill && watermark.Some? && DateOf(watermark.value) >= today
    ensures p.Window? ==> p.start == DateOf(watermark.value) + 1 && p.end == today + 1
  {
    if fullBackfill || watermark.None? then FullHistory
    else if DateOf(watermark.value) < today then Window(DateOf(watermark.value) + 1, today + 1)
    else Skip
  }

  /** An incremental window covers exactly the days after the watermark's day up to and
      including today, it is never empty, and every timestamp it covers lies strictly after
      the watermark. */
  lemma WindowCoversMissingDays(fullBackfill: bool, w: int, today: int)
    requires PlanFetch(fullBackfill, Some(w), today).Window?
    ensures var p := PlanFetch(fullBackfill, Some(w), today);
      && (forall d :: InWindow(p, d) <==> DateOf(w) < d <= today)
      && p.start <= today < p.end
      && (forall t :: p.start <= DateOf(t) ==> w < t)
  {
    var p := PlanFetch(fullBackfill, Some(w), today);
    forall t | p.start <= DateOf(t)
      ensures w < t
    {
      if t <= w {
        DateOfMonotone(t, w);
      }
    }
  }

  /** With a watermark that is already today (or later) and no flag, nothing is fetched. */
  lemma UpToDateSkips(w: int, today: int)
    requires DateOf(w) >= today
    ensures PlanFetch(false, Some(w), today) == Skip
    ensures forall b :: PlanFetch(b, Some(w), today) != Skip ==> b
  {
  }

  /** What the loop logs for one symbol: the plan, the bars fetched, the rows inserted. */
  datatype SymbolReport = SymbolReport(symbol: string, plan: Plan, fetched: nat, inserted: nat)

  /** One iteration of the loop. `history` stands for `yf.Ticker(symbol).history(...)`
      under the chosen plan. */
  function SyncSymbol(t: Table, symbol: string, fullBackfill: bool, today: int,
                      history: (string, Plan) -> seq<Quote>): (r: (Table, SymbolReport))
    ensures r.1.symbol == symbol
    ensures r.1.plan == PlanFetch(fullBackfill, Watermark(t, symbol), today)
    ensures r.1.plan.Skip? ==> r.0 == t && r.1.fetched == 0 && r.1.inserted == 0
    ensures !r.1.plan.Skip? ==> r.1.fetched == |history(symbol, r.1.plan)|
    ensures r.1.inserted <= r.1.fetched
    ensures Extends(t, r.0)
  {
    var plan := PlanFetch(fullBackfill, Watermark(t, symbol), today);
    if plan.Skip? then (t, SymbolReport(symbol, plan, 0, 0))
    else
      var quotes := history(symbol, plan);
      var (t', n) := OfferAll(t, BarColumns, BarRows(symbol, quotes), None);
      (t', SymbolReport(symbol, plan, |quotes|, n))
  }

  /** On the keyed historical table, one iteration only adds rows of its own symbol, leaves
      other symbols' rows alone, grows by the reported count, and does not lower the
      symbol's watermark. */
  lemma SyncSymbolEffect(t: Table, symbol: string, fullBackfill: bool, today: int,
                         history: (string, Plan) -> seq<Quote>)
    requires t.Keyed?
    ensures var r := SyncSymbol(t, symbol, fullBackfill, today, history);
      && (forall k :: k in r.0.entries && k !in t.entries ==> k.0 == symbol)
      && (forall k :: k in r.0.entries && k.0 != symbol ==> k in t.entries)
      && |r.0.entries| == |t.entries| + r.1.inserted
      && AtLeast(Watermark(r.0, symbol), Watermark(t, symbol))
  {
    var r := SyncSymbol(t, symbol, fullBackfill, today, history);
    ExtendsStoredKeys(t, r.0);
    WatermarkMonotone(t, r.0, symbol);
    if !r.1.plan.Skip? {
      var quotes := history(symbol, r.1.plan);
      var rows := BarRows(symbol, quotes);
      OfferAllNewKeys(t, BarColumns, rows, None);
      forall k | k in r.0.entries && k !in t.entries
        ensures k.0 == symbol
      {
        var i :| 0 <= i < |rows| && RowKey(t.columns, BarColumns, rows[i]) == Some(k);
        BarRowKey(t.columns, symbol, quotes[i]);
      }
    }
  }

  /** Every key an iteration adds is (symbol, timestamp) of a bar it fetched: nothing else
      is written. */
  lemma SyncSymbolNewKeys(t: Table, symbol: string, fullBackfill: bool, today: int,
                          history: (string, Plan) -> seq<Quote>)
    requires t.Keyed?
    ensures var r := SyncSymbol(t, symbol, fullBackfill, today, history);
      forall k :: k in r.0.entries && k !in t.entries ==>
        exists q :: q in history(symbol, r.1.plan) && k == (symbol, q.datetime)
  {
    var r := SyncSymbol(t, symbol, fullBackfill, today, history);
    if !r.1.plan.Skip? {
      var quotes := history(symbol, r.1.plan);
      var rows := BarRows(symbol, quotes);
      OfferAllNewKeys(t, BarColumns, rows, None);
      forall k | k in r.0.entries && k !in t.entries
        ensures exists q :: q in quotes && k == (symbol, q.datetime)
      {
        var i :| 0 <= i < |rows| && RowKey(t.columns, BarColumns, rows[i]) == Some(k);
        BarRowKey(t.columns, symbol, quotes[i]);
        assert quotes[i] in quotes;
      }
    }
  }

  /** With the bar columns in place, every fetched bar ends up stored under
      (symbol, bar timestamp), whether it was new or already there. */
  lemma SyncSymbolStoresFetched(t: Table, symbol: string, fullBackfill: bool, today: int,
                                history: (string, Plan) -> seq<Quote>)
    requires t.Keyed?
    requires forall c :: c in BarColumns ==> c in t.columns
    ensures var r := SyncSymbol(t, symbol, fullBackfill, today, history);
      !r.1.plan.Skip? ==>
        forall q :: q in history(symbol, r.1.plan) ==> (symbol, q.datetime) in r.0.entries
  {
    var r := SyncSymbol(t, symbol, fullBackfill, today, history);
    if !r.1.plan.Skip? {
      var quotes := history(symbol, r.1.plan);
      var rows := BarRows(symbol, quotes);
      OfferAllCovers(t, BarColumns, rows, None);
      forall q | q in quotes
        ensures (symbol, q.datetime) in r.0.entries
      {
        var i :| 0 <= i < |quotes| && quotes[i] == q;
        BarRowKey(t.columns, symbol, q);
      }
    }
  }

  /** On a table with exactly the bar columns, the first bar tuple keyed (symbol, at) is the
      first fetched bar stamped `at`, and it is stored as its own tuple. */
  lemma FirstBarWithStamp(symbol: string, quotes: seq<Quote>, at: int, i: int)
    requires FirstWithKey(BarColumns, BarColumns, BarRows(symbol, quotes), (symbol, at), i)
    ensures 0 <= i < |quotes| && quotes[i].datetime == at
    ensures forall j :: 0 <= j < i ==> quotes[j].datetime != at
    ensures Arrange(BarColumns, BarColumns, BarRows(symbol, quotes)[i]) == BarRow(symbol, quotes[i])
  {
    var rows := BarRows(symbol, quotes);
    BarColumnsDistinct();
    BarRowKey(BarColumns, symbol, quotes[i]);
    forall j | 0 <= j < i
      ensures quotes[j].datetime != at
    {
      BarRowKey(BarColumns, symbol, quotes[j]);
      assert RowKey(BarColumns, BarColumns, rows[j]) != Some((symbol, at));
    }
    ArrangeIdentity(BarColumns, rows[i]);
  }

  /** On the historical table, whose columns are exactly the bar columns, a bar whose key was
      absent before is stored as the tuple of the first fetched bar with that timestamp. */
  lemma SyncSymbolStoresBars(t: Table, symbol: string, fullBackfill: bool, today: int,
                             history: (string, Plan) -> seq<Quote>)
    requires t.Keyed? && t.columns == BarColumns
    ensures var r := SyncSymbol(t, symbol, fullBackfill, today, history);
      var quotes := history(symbol, r.1.plan);
      !r.1.plan.Skip? ==>
        forall q :: q in quotes && (symbol, q.datetime) !in t.entries ==>
          && (symbol, q.datetime) in r.0.entries
          && exists i :: && 0 <= i < |quotes| && quotes[i].datetime == q.datetime
                         && (forall j :: 0 <= j < i ==> quotes[j].datetime != q.datetime)
                         && r.0.entries[(symbol, q.datetime)] == BarRow(symbol, quotes[i])
  {
    var r := SyncSymbol(t, symbol, fullBackfill, today, history);
    if !r.1.plan.Skip? {
      var quotes := history(symbol, r.1.plan);
      var rows := BarRows(symbol, quotes);
      SyncSymbolStoresFetched(t, symbol, fullBackfill, today, history);
      OfferAllStoresRow(t, BarColumns, rows, None);
      forall q | q in quotes && (symbol, q.datetime) !in t.entries
        ensures exists i :: && 0 <= i < |quotes| && quotes[i].datetime == q.datetime
                            && (forall j :: 0 <= j < i ==> quotes[j].datetime != q.datetime)
                            && r.0.entries[(symbol, q.datetime)] == BarRow(symbol, quotes[i])
      {
        var k := (symbol, q.datetime);
        var i :| FirstWithKey(t.columns, BarColumns, rows, k, i)
                 && r.0.entries[k] == Arrange(t.columns, BarColumns, rows[i]);
        FirstBarWithStamp(symbol, quotes, q.datetime, i);
      }
    }
  }

  /** One report per listed symbol, the i-th about the i-th symbol. */
  predicate ReportsFollow(reports: seq<SymbolReport>, stocks: seq<string>)
  {
    |reports| == |stocks| && forall i :: 0 <= i < |stocks| ==> reports[i].symbol == stocks[i]
  }

  lemma ReportsFollowStep(before: seq<SymbolReport>, last: SymbolReport, stocks: seq<string>)
    requires |stocks| > 0 && ReportsFollow(before, stocks[..|stocks| - 1])
    requires last.symbol == stocks[|stocks| - 1]
    ensures ReportsFollow(before + [last], stocks)
  {
    var n := |stocks| - 1;
    forall i | 0 <= i < n
      ensures (before + [last])[i].symbol == stocks[i]
    {
      assert stocks[..n][i] == stocks[i];
    }
  }

  /** The whole loop over `stocks`, in list order. `today(i)` is the date read at the
      i-th iteration (the script reads the clock once per symbol). */
  function SyncStocks(t: Table, stocks: seq<string>, fullBackfill: bool, today: nat -> int,
                      history: (string, Plan) -> seq<Quote>): (r: (Table, seq<SymbolReport>))
    ensures ReportsFollow(r.1, stocks)
    ensures Extends(t, r.0)
    decreases |stocks|
  {
    if |stocks| == 0 then (t, [])
    else
      var n := |stocks| - 1;
      var before := SyncStocks(t, stocks[..n], fullBackfill, today, history);
      var step := SyncSymbol(before.0, stocks[n], fullBackfill, today(n), history);
      ExtendsTransitive(t, before.0, step.0);
      ReportsFollowStep(before.1, step.1, stocks);
      (step.0, before.1 + [step.1])
  }

  /** Across the whole run: no stored row is lost or rewritten, no watermark decreases, and
      on the keyed table only the listed symbols gain rows. */
  lemma {:induction false} SyncStocksEffect(t: Table, stocks: seq<string>, fullBackfill: bool,
                                            today: nat -> int, history: (string, Plan) -> seq<Quote>)
    ensures var t' := SyncStocks(t, stocks, fullBackfill, today, history).0;
      forall s :: AtLeast(Watermark(t', s), Watermark(t, s))
    ensures t.Keyed? ==>
      var t' := SyncStocks(t, stocks, fullBackfill, today, history).0;
      forall k :: k in t'.entries && k !in t.entries ==> k.0 in stocks
    decreases |stocks|
  {
    var t' := SyncStocks(t, stocks, fullBackfill, today, history).0;
    ExtendsStoredKeys(t, t');
    forall s
      ensures AtLeast(Watermark(t', s), Watermark(t, s))
    {
      WatermarkMonotone(t, t', s);
    }
    if t.Keyed? && |stocks| > 0 {
      var n := |stocks| - 1;
      var t1 := SyncStocks(t, stocks[..n], fullBackfill, today, history).0;
      SyncStocksEffect(t, stocks[..n], fullBackfill, today, history);
      SyncSymbolEffect(t1, stocks[n], fullBackfill, today(n), history);
      forall k | k in t'.entries && k !in t.entries
        ensures k.0 in stocks
      {
        if k in t1.entries {
          assert k.0 in stocks[..n];
        }
      }
    }
  }

  /** An example: AAPL holds bars up to 2023-06-01 (day 19509) and today is
      2023-06-05 (day 19513); the window is 2023-06-02 up to, but excluding, 2023-06-06.
      After bars up to 2023-06-04 are stored, a rerun on the same day asks only for 06-05. */
  lemma WorkedExample()
    ensures PlanFetch(false, Some(DayStart(19509)), 19513) == Window(19510, 19514)
    ensures PlanFetch(false, Some(DayStart(19512) + 57600), 19513) == Window(19513, 19514)
    ensures PlanFetch(false, Some(DayStart(19513) + 57600), 19513) == Skip
    ensures PlanFetch(true, Some(DayStart(19513) + 57600), 19513) == FullHistory
  {
  }
}

=== FILE: intraday_sync.dfy ===
/** The intraday fetcher: per symbol, choose the output size from the flag and the
    watermark, store the one-minute bars insert-or-ignore, then store the daily SMA series
    insert-or-ignore unless the indicator call raises. */
module IntradaySync {
  import opened Wrappers
  import opened Schema
  import opened Store
  import opened Observations
  import DailySync

  datatype OutputSize = Full | Compact

  /** The arguments of `get_intraday`: the interval is fixed, only the output size varies. */
  datatype IntradayRequest = IntradayRequest(interval: string, outputsize: OutputSize)

  const Interval: string := "1min"

  /** The conflict clause both inserts carry. */
  const OnConflict: Option<string> := Some("ON CONFLICT (symbol, datetime) DO NOTHING")

  /** The `ValueError` the provider raises, e.g. when the rate limit is hit. */
  datatype ApiError = ApiError(message: string)

  /** The flag forces `full`; otherwise the watermark is read and `compact` is chosen exactly
      when the symbol already has rows. No time window is ever derived from it. */
  function RequestFor(t: Table, symbol: string, fullBackfill: bool): (r: IntradayRequest)
    ensures r.interval == Interval
    ensures fullBackfill ==> r.outputsize == Full
    ensures !fullBackfill ==>
      (r.outputsize == Compact <==> exists k :: k in StoredKeys(t) && k.0 == symbol)
  {
    if fullBackfill then IntradayRequest(Interval, Full)
    else IntradayRequest(Interval, if Watermark(t, symbol).Some? then Compact else Full)
  }

  /** The intraday fetcher asks for the full output exactly when the daily planner, given the
      same flag and watermark, would backfill the full history. */
  lemma FullOutputIffBackfill(t: Table, symbol: string, fullBackfill: bool, today: int)
    ensures RequestFor(t, symbol, fullBackfill).outputsize == Full
            <==> DailySync.PlanFetch(fullBackfill, Watermark(t, symbol), today).FullHistory?
  {
  }

  datatype SmaStatus = SmaStored(fetched: nat, inserted: nat) | SmaRateLimited(error: ApiError)

  datatype IntradayReport = IntradayReport(symbol: string, request: IntradayRequest,
                                           barsFetched: nat, barsInserted: nat, sma: SmaStatus)

  datatype Tables = Tables(intraday: Table, sma: Table)

  /** One iteration either completes, or raises out of the loop from `get_intraday`. */
  datatype Step = Stepped(tables: Tables, report: IntradayReport) | Raised(error: ApiError)

  /** One iteration of the loop. `getIntraday` and `getSma` stand for the two provider calls. */
  function SyncSymbol(db: Tables, symbol: string, fullBackfill: bool,
                      getIntraday: (string, IntradayRequest) -> Result<seq<Quote>, ApiError>,
                      getSma: string -> Result<seq<SmaPoint>, ApiError>): (r: Step)
    ensures r.Raised? <==> getIntraday(symbol, RequestFor(db.intraday, symbol, fullBackfill)).Failure?
    ensures r.Stepped? ==> r.report.symbol == symbol
    ensures r.Stepped? ==> Extends(db.intraday, r.tables.intraday) && Extends(db.sma, r.tables.sma)
    ensures r.Stepped? ==> (r.report.sma.SmaRateLimited? <==> getSma(symbol).Failure?)
    ensures r.Stepped? && r.report.sma.SmaRateLimited? ==> r.tables.sma == db.sma
  {
    var request := RequestFor(db.intraday, symbol, fullBackfill);
    match getIntraday(symbol, request)
    case Failure(e) => Raised(e)
    case Success(bars) =>
      var (intraday, barsInserted) := OfferAll(db.intraday, BarColumns, BarRows(symbol, bars), OnConflict);
      match getSma(symbol)
      case Failure(e) =>
        Stepped(Tables(intraday, db.sma),
                IntradayReport(symbol, request, |bars|, barsInserted, SmaRateLimited(e)))
      case Success(points) =>
        var (sma, smaInserted) := OfferAll(db.sma, SmaColumns, SmaRows(symbol, points), OnConflict);
        Stepped(Tables(intraday, sma),
                IntradayReport(symbol, request, |bars|, barsInserted, SmaStored(|points|, smaInserted)))
  }

  /** A failing SMA call costs only the SMA rows: the symbol's bars are stored as if the SMA
      step had not been attempted, and the SMA table is untouched. */
  lemma SmaFailureKeepsBars(db: Tables, symbol: string, fullBackfill: bool,
                            getIntraday: (string, IntradayRequest) -> Result<seq<Quote>, ApiError>,
                            getSma: string -> Result<seq<SmaPoint>, ApiError>)
    requires getSma(symbol).Failure?
    requires getIntraday(symbol, RequestFor(db.intraday, symbol, fullBackfill)).Success?
    ensures var r := SyncSymbol(db, symbol, fullBackfill, getIntraday, getSma);
      var bars := getIntraday(symbol, RequestFor(db.intraday, symbol, fullBackfill)).value;
      && r.Stepped?
      && r.tables.intraday == OfferAll(db.intraday, BarColumns, BarRows(symbol, bars), OnConflict).0
      && r.tables.sma == db.sma
      && r.report.sma == SmaRateLimited(getSma(symbol).error)
  {
  }

  /** Whatever the SMA call does, a completed iteration has offered every fetched bar to the
      intraday table, in fetch order, with the conflict clause. */
  lemma BarsWritten(db: Tables, symbol: string, fullBackfill: bool,
                    getIntraday: (string, IntradayRequest) -> Result<seq<Quote>, ApiError>,
                    getSma: string -> Result<seq<SmaPoint>, ApiError>)
    ensures var r := SyncSymbol(db, symbol, fullBackfill, getIntraday, getSma);
      var fetched := getIntraday(symbol, RequestFor(db.intraday, symbol, fullBackfill));
      r.Stepped? ==>
        r.tables.intraday == OfferAll(db.intraday, BarColumns, BarRows(symbol, fetched.value), OnConflict).0
  {
  }

  /** On the keyed intraday table, a completed iteration stores every fetched bar under
      (symbol, bar timestamp), and every key it adds belongs to the loop's symbol. */
  lemma BarsStored(db: Tables, symbol: string, fullBackfill: bool,
                   getIntraday: (string, IntradayRequest) -> Result<seq<Quote>, ApiError>,
                   getSma: string -> Result<seq<SmaPoint>, ApiError>)
    requires db.intraday.Keyed?
    requires forall c :: c in BarColumns ==> c in db.intraday.columns
    ensures var r := SyncSymbol(db, symbol, fullBackfill, getIntraday, getSma);
      var fetched := getIntraday(symbol, RequestFor(db.intraday, symbol, fullBackfill));
      r.Stepped? ==>
        && (forall q :: q in fetched.value ==> (symbol, q.datetime) in r.tables.intraday.entries)
        && (forall k :: k in r.tables.intraday.entries && k !in db.intraday.entries ==> k.0 == symbol)
  {
    var r := SyncSymbol(db, symbol, fullBackfill, getIntraday, getSma);
    var fetched := getIntraday(symbol, RequestFor(db.intraday, symbol, fullBackfill));
    if r.Stepped? {
      var bars := fetched.value;
      var rows := BarRows(symbol, bars);
      var t := db.intraday;
      BarsWritten(db, symbol, fullBackfill, getIntraday, getSma);
      OfferAllCovers(t, BarColumns, rows, OnConflict);
      OfferAllNewKeys(t, BarColumns, rows, OnConflict);
      forall q | q in bars
        ensures (symbol, q.datetime) in r.tables.intraday.entries
      {
        var i :| 0 <= i < |bars| && bars[i] == q;
        BarRowKey(t.columns, symbol, q);
      }
      forall k | k in r.tables.intraday.entries && k !in t.entries
        ensures k.0 == symbol
      {
        var i :| 0 <= i < |rows| && RowKey(t.columns, BarColumns, rows[i]) == Some(k);
        BarRowKey(t.columns, symbol, bars[i]);
      }
    }
  }

  /** On the keyed SMA table an iteration adds only keys (symbol, day of a fetched point):
      one row per day, however many points share it. */
  lemma SmaKeysPerDay(db: Tables, symbol: string, fullBackfill: bool,
                      getIntraday: (string, IntradayRequest) -> Result<seq<Quote>, ApiError>,
                      getSma: string -> Result<seq<SmaPoint>, ApiError>)
    requires db.sma.Keyed?
    ensures var r := SyncSymbol(db, symbol, fullBackfill, getIntraday, getSma);
      r.Stepped? && getSma(symbol).Success? ==>
        forall k :: k in r.tables.sma.entries && k !in db.sma.entries ==>
          exists p :: p in getSma(symbol).value && k == (symbol, DateOf(p.at))
  {
    var r := SyncSymbol(db, symbol, fullBackfill, getIntraday, getSma);
    if r.Stepped? && getSma(symbol).Success? {
      var points := getSma(symbol).value;
      var rows := SmaRows(symbol, points);
      OfferAllNewKeys(db.sma, SmaColumns, rows, OnConflict);
      forall k | k in r.tables.sma.entries && k !in db.sma.entries
        ensures exists p :: p in points && k == (symbol, DateOf(p.at))
      {
        var i :| 0 <= i < |rows| && RowKey(db.sma.columns, SmaColumns, rows[i]) == Some(k);
        SmaRowKey(db.sma.columns, symbol, points[i]);
        assert points[i] in points;
      }
    }
  }

  /** With the SMA columns in place, every fetched point's day is stored for the symbol. */
  lemma SmaDaysStored(db: Tables, symbol: string, fullBackfill: bool,
                      getIntraday: (string, IntradayRequest) -> Result<seq<Quote>, ApiError>,
                      getSma: string -> Result<seq<SmaPoint>, ApiError>)
    requires db.sma.Keyed?
    requires forall c :: c in SmaColumns ==> c in db.sma.columns
    ensures var r := SyncSymbol(db, symbol, fullBackfill, getIntraday, getSma);
      r.Stepped? && getSma(symbol).Success? ==>
        forall p :: p in getSma(symbol).value ==> (symbol, DateOf(p.at)) in r.tables.sma.entries
  {
    var r := SyncSymbol(db, symbol, fullBackfill, getIntraday, getSma);
    if r.Stepped? && getSma(symbol).Success? {
      var points := getSma(symbol).value;
      var rows := SmaRows(symbol, points);
      OfferAllCovers(db.sma, SmaColumns, rows, OnConflict);
      forall p | p in points
        ensures (symbol, DateOf(p.at)) in r.tables.sma.entries
      {
        var i :| 0 <= i < |points| && points[i] == p;
        SmaRowKey(db.sma.columns, symbol, p);
      }
    }
  }

  /** When the SMA call succeeds, a completed iteration has offered every fetched SMA point
      to the SMA table, in order, with the conflict clause. */
  lemma SmaWritten(db: Tables, symbol: string, fullBackfill: bool,
                   getIntraday: (string, IntradayRequest) -> Result<seq<Quote>, ApiError>,
                   getSma: string -> Result<seq<SmaPoint>, ApiError>)
    ensures var r := SyncSymbol(db, symbol, fullBackfill, getIntraday, getSma);
      r.Stepped? && getSma(symbol).Success? ==>
        && r.tables.sma == OfferAll(db.sma, SmaColumns, SmaRows(symbol, getSma(symbol).value), OnConflict).0
        && r.report.sma == SmaStored(|getSma(symbol).value|,
                                     OfferAll(db.sma, SmaColumns, SmaRows(symbol, getSma(symbol).value), OnConflict).1)
  {
  }

  /** On a table with exactly the SMA columns, the first SMA tuple keyed (symbol, d) is the
      first fetched point of day `d`, and it is stored as its own tuple. */
  lemma FirstPointOfDay(symbol: string, points: seq<SmaPoint>, d: int, i: int)
    requires FirstWithKey(SmaColumns, SmaColumns, SmaRows(symbol, points), (symbol, d), i)
    ensures 0 <= i < |points| && DateOf(points[i].at) == d
    ensures forall j :: 0 <= j < i ==> DateOf(points[j].at) != d
    ensures Arrange(SmaColumns, SmaColumns, SmaRows(symbol, points)[i]) == SmaRow(symbol, points[i])
  {
    var rows := SmaRows(symbol, points);
    BarColumnsDistinct();
    SmaRowKey(SmaColumns, symbol, points[i]);
    forall j | 0 <= j < i
      ensures DateOf(points[j].at) != d
    {
      SmaRowKey(SmaColumns, symbol, points[j]);
      assert RowKey(SmaColumns, SmaColumns, rows[j]) != Some((symbol, d));
    }
    ArrangeIdentity(SmaColumns, rows[i]);
  }

  /** `entries` holds, under `k`, the tuple of the first point in `points` whose day is `k.1`. */
  predicate StoredAsFirstPoint(entries: map<Key, Row>, symbol: string, points: seq<SmaPoint>, k: Key)
  {
    && k in entries
    && exists i :: && 0 <= i < |points| && k == (symbol, DateOf(points[i].at))
                   && (forall j :: 0 <= j < i ==> DateOf(points[j].at) != k.1)
                   && entries[k] == SmaRow(symbol, points[i])
  }

  /** Offering SMA tuples to a table with exactly the SMA columns: a day whose key was absent
      holds the tuple of the first point of that day. */
  lemma {:induction false} SmaBatchStoresPoints(t: Table, symbol: string, points: seq<SmaPoint>)
    requires t.Keyed? && t.columns == SmaColumns
    ensures var r := OfferAll(t, SmaColumns, SmaRows(symbol, points), OnConflict).0;
      forall k :: k in r.entries && k !in t.entries ==> StoredAsFirstPoint(r.entries, symbol, points, k)
  {
    var rows := SmaRows(symbol, points);
    var r := OfferAll(t, SmaColumns, rows, OnConflict).0;
    OfferAllStoresRow(t, SmaColumns, rows, OnConflict);
    forall k | k in r.entries && k !in t.entries
      ensures StoredAsFirstPoint(r.entries, symbol, points, k)
    {
      var i :| FirstWithKey(SmaColumns, SmaColumns, rows, k, i)
               && r.entries[k] == Arrange(SmaColumns, SmaColumns, rows[i]);
      SmaRowKey(SmaColumns, symbol, points[i]);
      FirstPointOfDay(symbol, points, k.1, i);
    }
  }

  /** On the SMA table, whose columns are exactly the SMA columns, a day whose key was absent
      before holds `(symbol, day, sma)` of the first fetched point of that day. */
  lemma SmaStoresPoints(db: Tables, symbol: string, fullBackfill: bool,
                        getIntraday: (string, IntradayRequest) -> Result<seq<Quote>, ApiError>,
                        getSma: string -> Result<seq<SmaPoint>, ApiError>)
    requires db.sma.Keyed? && db.sma.columns == SmaColumns
    ensures var r := SyncSymbol(db, symbol, fullBackfill, getIntraday, getSma);
      r.Stepped? && getSma(symbol).Success? ==>
        forall k :: k in r.tables.sma.entries && k !in db.sma.entries ==>
          StoredAsFirstPoint(r.tables.sma.entries, symbol, getSma(symbol).value, k)
  {
    SmaWritten(db, symbol, fullBackfill, getIntraday, getSma);
    if getSma(symbol).Success? {
      SmaBatchStoresPoints(db.sma, symbol, getSma(symbol).value);
    }
  }

  /** `Aborted` is the uncaught `ValueError` of `get_intraday`: the script stops there. */
  datatype RunStatus = Finished | Aborted(symbol: string, error: ApiError)

  datatype Run = Run(tables: Tables, reports: seq<IntradayReport>, status: RunStatus)

  /** One more symbol after `before`: an aborted run stays as it is, otherwise the symbol's
      iteration either appends its report or aborts the run at that symbol. */
  function Advance(before: Run, symbol: string, fullBackfill: bool,
                   getIntraday: (string, IntradayRequest) -> Result<seq<Quote>, ApiError>,
                   getSma: string -> Result<seq<SmaPoint>, ApiError>): (r: Run)
    ensures before.status.Aborted? ==> r == before
    ensures before.status.Finished? && r.status.Aborted? ==>
      && r.reports == before.reports && r.status.symbol == symbol
      && getIntraday(symbol, RequestFor(before.tables.intraday, symbol, fullBackfill)) == Failure(r.status.error)
    ensures before.status.Finished? && r.status.Finished? ==>
      && |r.reports| == |before.reports| + 1
      && r.reports[|before.reports|].symbol == symbol
      && (forall i :: 0 <= i < |before.reports| ==> r.reports[i] == before.reports[i])
    ensures Extends(before.tables.intraday, r.tables.intraday) && Extends(before.tables.sma, r.tables.sma)
  {
    if before.status.Aborted? then before
    else
      match SyncSymbol(before.tables, symbol, fullBackfill, getIntraday, getSma)
      case Raised(e) => Run(before.tables, before.reports, Aborted(symbol, e))
      case Stepped(tables, report) => Run(tables, before.reports + [report], Finished)
  }

  /** The reports so far are about a prefix of the list: the i-th about the i-th symbol. */
  predicate ReportsPrefix(reports: seq<IntradayReport>, stocks: seq<string>)
  {
    |reports| <= |stocks| && forall i :: 0 <= i < |reports| ==> reports[i].symbol == stocks[i]
  }

  lemma ReportsPrefixStep(before: seq<IntradayReport>, after: seq<IntradayReport>, stocks: seq<string>)
    requires |stocks| > 0 && ReportsPrefix(before, stocks[..|stocks| - 1])
    requires after == before || (|before| == |stocks| - 1 && |after| == |before| + 1
      && after[|before|].symbol == stocks[|before|]
      && forall i :: 0 <= i < |before| ==> after[i] == before[i])
    ensures ReportsPrefix(after, stocks)
  {
    var n := |stocks| - 1;
    forall i | 0 <= i < |after|
      ensures after[i].symbol == stocks[i]
    {
      if i < |before| {
        assert stocks[..n][i] == stocks[i];
      }
    }
  }

  /** The whole loop over `stocks`, in list order. */
  function SyncStocks(db: Tables, stocks: seq<string>, fullBackfill: bool,
                      getIntraday: (string, IntradayRequest) -> Result<seq<Quote>, ApiError>,
                      getSma: string -> Result<seq<SmaPoint>, ApiError>): (r: Run)
    ensures ReportsPrefix(r.reports, stocks)
    ensures r.status.Finished? ==> |r.reports| == |stocks|
    ensures r.status.Aborted? ==> |r.reports| < |stocks| && r.status.symbol == stocks[|r.reports|]
    ensures Extends(db.intraday, r.tables.intraday) && Extends(db.sma, r.tables.sma)
    decreases |stocks|
  {
    if |stocks| == 0 then Run(db, [], Finished)
    else
      var n := |stocks| - 1;
      var before := SyncStocks(db, stocks[..n], fullBackfill, getIntraday, getSma);
      var r := Advance(before, stocks[n], fullBackfill, getIntraday, getSma);
      ReportsPrefixStep(before.reports, r.reports, stocks);
      ExtendsTransitive(db.intraday, before.tables.intraday, r.tables.intraday);
      ExtendsTransitive(db.sma, before.tables.sma, r.tables.sma);
      r
  }

  /** Only the bar call can stop the run: when it never raises, every symbol is visited, in
      order, whatever the SMA call does. */
  lemma {:induction false} SmaFailuresDoNotStopRun(db: Tables, stocks: seq<string>, fullBackfill: bool,
                                                   getIntraday: (string, IntradayRequest) -> Result<seq<Quote>, ApiError>,
                                                   getSma: string -> Result<seq<SmaPoint>, ApiError>)
    requires forall s, q :: getIntraday(s, q).Success?
    ensures SyncStocks(db, stocks, fullBackfill, getIntraday, getSma).status == Finished
    ensures |SyncStocks(db, stocks, fullBackfill, getIntraday, getSma).reports| == |stocks|
    decreases |stocks|
  {
    if |stocks| > 0 {
      SmaFailuresDoNotStopRun(db, stocks[..|stocks| - 1], fullBackfill, getIntraday, getSma);
    }
  }

  /** An aborted run was stopped by the bar call of the symbol it names. */
  lemma {:induction false} AbortCause(db: Tables, stocks: seq<string>, fullBackfill: bool,
                                      getIntraday: (string, IntradayRequest) -> Result<seq<Quote>, ApiError>,
                                      getSma: string -> Result<seq<SmaPoint>, ApiError>)
    ensures var r := SyncStocks(db, stocks, fullBackfill, getIntraday, getSma);
      r.status.Aborted? ==>
        exists q :: getIntraday(r.status.symbol, q) == Failure(r.status.error)
    decreases |stocks|
  {
    if |stocks| > 0 {
      var n := |stocks| - 1;
      AbortCause(db, stocks[..n], fullBackfill, getIntraday, getSma);
      var before := SyncStocks(db, stocks[..n], fullBackfill, getIntraday, getSma);
      if !before.status.Aborted? {
        var q := RequestFor(before.tables.intraday, stocks[n], fullBackfill);
        var r := SyncStocks(db, stocks, fullBackfill, getIntraday, getSma);
        assert r == Advance(before, stocks[n], fullBackfill, getIntraday, getSma);
        if r.status.Aborted? {
          assert getIntraday(stocks[n], q) == Failure(r.status.error);
        }
      }
    }
  }
}

=== FILE: news_transform.dfy ===
/** The news transformation: drop every raw news row that carries the `"[Removed]"`
    marker as one of its fields, and insert the rest into the processed news table. */
module NewsTransform {
  import opened Wrappers
  import opened Schema
  import opened Store

  const Removed: string := "[Removed]"

  /** `"[Removed]" in row`: tuple membership compares whole field values, so only a text
      field equal to the marker counts, never a longer text that merely contains it. */
  predicate Redacted(row: Row): (b: bool)
    ensures b <==> exists i :: 0 <= i < |row| && row[i].Text? && row[i].s == Removed
  {
    Text(Removed) in row
  }

  /** The kept rows, in their original order and unmodified. */
  function KeepUnredacted(rows: seq<Row>): (r: seq<Row>)
    ensures |r| <= |rows|
    ensures forall x :: x in r <==> x in rows && !Redacted(x)
    decreases |rows|
  {
    if |rows| == 0 then []
    else (if Redacted(rows[0]) then [] else [rows[0]]) + KeepUnredacted(rows[1..])
  }

  /** Filtering distributes over concatenation: the relative order of kept rows is the
      order of the input. */
  lemma {:induction false} KeepAppend(a: seq<Row>, b: seq<Row>)
    ensures KeepUnredacted(a + b) == KeepUnredacted(a) + KeepUnredacted(b)
    decreases |a|
  {
    if |a| > 0 {
      var head := if Redacted(a[0]) then [] else [a[0]];
      assert (a + b)[0] == a[0];
      assert (a + b)[1..] == a[1..] + b;
      assert KeepUnredacted(a + b) == head + KeepUnredacted(a[1..] + b);
      assert KeepUnredacted(a) == head + KeepUnredacted(a[1..]);
      KeepAppend(a[1..], b);
      AppendAssoc(head, KeepUnredacted(a[1..]), KeepUnredacted(b));
    } else {
      assert a + b == b;
    }
  }

  /** Rows without the marker pass through untouched. */
  lemma {:induction false} KeepClean(rows: seq<Row>)
    requires forall i :: 0 <= i < |rows| ==> !Redacted(rows[i])
    ensures KeepUnredacted(rows) == rows
    decreases |rows|
  {
    if |rows| > 0 {
      KeepClean(rows[1..]);
    }
  }

  /** Filtering twice is filtering once. */
  lemma KeepIdempotent(rows: seq<Row>)
    ensures KeepUnredacted(KeepUnredacted(rows)) == KeepUnredacted(rows)
  {
    var once := KeepUnredacted(rows);
    assert forall i :: 0 <= i < |once| ==> once[i] in once;
    KeepClean(once);
  }

  /** A title that only contains the marker inside a longer text is kept; a field equal to
      the marker drops the row; timestamps and NULLs never match. */
  lemma MarkerMatchesWholeFields()
    ensures !Redacted([Text("Apple"), Text("[Removed] by publisher"), Null, Stamp(0)])
    ensures Redacted([Text("Apple"), Text("[Removed]"), Null, Stamp(0)])
    ensures var row := [Text("Apple"), Text("[Removed] by publisher"), Null, Stamp(0)];
            KeepUnredacted([row]) == [row]
  {
    var row := [Text("Apple"), Text("[Removed] by publisher"), Null, Stamp(0)];
    assert Text("[Removed] by publisher") != Text(Removed) by {
      assert |"[Removed] by publisher"| != |Removed|;
    }
    assert [row][1..] == [];
  }

  /** Inserting the kept rows one by one, with the news column list and no conflict clause. */
  function InsertProcessed(processed: Table, raw: seq<Row>): (r: (Table, nat))
    ensures Extends(processed, r.0)
    ensures r.1 <= |KeepUnredacted(raw)|
  {
    OfferAll(processed, ColumnNames(FinancialNews), KeepUnredacted(raw), None)
  }

  lemma NewsColumnsDistinct()
    ensures Distinct(ColumnNames(FinancialNews))
    ensures |ColumnNames(FinancialNews)| == 6
  {
    assert ColumnNames(FinancialNews) == ["company", "title", "description", "url", "published_at", "source_name"];
  }

  /** Rows read from the raw news table have its six columns. */
  predicate NewsShaped(raw: seq<Row>)
  {
    forall i :: 0 <= i < |raw| ==> |raw[i]| == |FinancialNews.columns|
  }

  /** Into the unconstrained processed table every kept row is appended, in order, as read. */
  lemma InsertProcessedAppends(processed: Table, raw: seq<Row>)
    requires processed.Heap? && processed.columns == ColumnNames(FinancialNews)
    requires NewsShaped(raw)
    ensures InsertProcessed(processed, raw).0.rows == processed.rows + KeepUnredacted(raw)
    ensures InsertProcessed(processed, raw).1 == |KeepUnredacted(raw)|
  {
    var cols := ColumnNames(FinancialNews);
    var kept := KeepUnredacted(raw);
    NewsColumnsDistinct();
    forall i | 0 <= i < |kept|
      ensures |cols| == |kept[i]| && Accepts(cols, cols, kept[i])
    {
      assert kept[i] in raw;
    }
    OfferAllAppends(processed, cols, kept, None);
    forall i | 0 <= i < |kept|
      ensures ArrangeAll(cols, cols, kept)[i] == kept[i]
    {
      ArrangeIdentity(cols, kept[i]);
    }
  }

  /** With no key to conflict on, a second run appends the same rows once more. */
  lemma RerunDuplicates(processed: Table, raw: seq<Row>)
    requires processed.Heap? && processed.columns == ColumnNames(FinancialNews)
    requires NewsShaped(raw)
    ensures var once := InsertProcessed(processed, raw).0;
            InsertProcessed(once, raw).0.rows
            == processed.rows + KeepUnredacted(raw) + KeepUnredacted(raw)
  {
    InsertProcessedAppends(processed, raw);
    InsertProcessedAppends(InsertProcessed(processed, raw).0, raw);
  }

  const ProcessedNews: (string, string) := (ProcessedSchema, FinancialNews.name)

  /** `transform_financial_news`: create the processed table if missing, then insert the
      kept rows of `raw` (the result of selecting every row of the raw news table). */
  function Transform(c: Catalog, raw: seq<Row>): (r: Catalog)
    ensures ProcessedNews in r.tables
    ensures r.tables.Keys == c.tables.Keys + {ProcessedNews}
    ensures r.schemas == c.schemas + {ProcessedSchema}
    ensures forall key :: key in c.tables && key != ProcessedNews ==>
      key in r.tables && r.tables[key] == c.tables[key]
    ensures Extends(CreateTable(c, ProcessedSchema, FinancialNews).tables[ProcessedNews],
                    r.tables[ProcessedNews])
  {
    var c1 := CreateTable(c, ProcessedSchema, FinancialNews);
    Catalog(c1.schemas, c1.tables[ProcessedNews := InsertProcessed(c1.tables[ProcessedNews], raw).0])
  }

  /** Every run appends the kept rows, in order, to what the processed table already held
      (nothing, when the run creates it). */
  lemma TransformAppends(c: Catalog, raw: seq<Row>)
    requires NewsShaped(raw)
    requires ProcessedNews in c.tables ==>
      c.tables[ProcessedNews].Heap? && c.tables[ProcessedNews].columns == ColumnNames(FinancialNews)
    ensures Transform(c, raw).tables[ProcessedNews].Heap?
    ensures Transform(c, raw).tables[ProcessedNews].rows
            == (if ProcessedNews in c.tables then c.tables[ProcessedNews].rows else []) + KeepUnredacted(raw)
  {
    var c1 := CreateTable(c, ProcessedSchema, FinancialNews);
    if ProcessedNews !in c.tables {
      assert c1.tables[ProcessedNews] == EmptyTable(FinancialNews);
    }
    InsertProcessedAppends(c1.tables[ProcessedNews], raw);
  }

  /** Running the transformation again appends the same kept rows a second time. */
  lemma TransformRerun(c: Catalog, raw: seq<Row>)
    requires NewsShaped(raw)
    requires ProcessedNews in c.tables ==>
      c.tables[ProcessedNews].Heap? && c.tables[ProcessedNews].columns == ColumnNames(FinancialNews)
    ensures Transform(Transform(c, raw), raw).tables[ProcessedNews].rows
            == Transform(c, raw).tables[ProcessedNews].rows + KeepUnredacted(raw)
  {
    var once := Transform(c, raw);
    TransformAppends(c, raw);
    assert once.tables[ProcessedNews].columns == ColumnNames(FinancialNews);
    TransformAppends(once, raw);
  }

  /** A first run on a store without the processed table leaves exactly the kept rows there. */
  lemma FirstTransform(c: Catalog, raw: seq<Row>)
    requires ProcessedNews !in c.tables
    requires NewsShaped(raw)
    ensures Transform(c, raw).tables[ProcessedNews] == Heap(ColumnNames(FinancialNews), KeepUnredacted(raw))
  {
    var c1 := CreateTable(c, ProcessedSchema, FinancialNews);
    assert c1.tables[ProcessedNews] == EmptyTable(FinancialNews);
    InsertProcessedAppends(c1.tables[ProcessedNews], raw);
  }
}

=== FILE: observations.dfy ===
/** What the price providers return, and the tuples the fetchers build from it. */
module Observations {
  import opened Wrappers
  import opened Schema
  import opened Store

  const SecondsPerDay: int := 86400

  /** The calendar day of a timestamp (`.date()`), as a day number; timezones are not modelled. */
  function DateOf(t: int): (d: int)
    ensures d * SecondsPerDay <= t < (d + 1) * SecondsPerDay
  {
    t / SecondsPerDay
  }

  /** The first second of a day. */
  function DayStart(d: int): int
  {
    d * SecondsPerDay
  }

  /** A day contains exactly the timestamps from its first second up to the next day's. */
  lemma DateOfBounds(t: int)
    ensures DayStart(DateOf(t)) <= t < DayStart(DateOf(t) + 1)
  {
  }

  lemma DateOfMonotone(a: int, b: int)
    requires a <= b
    ensures DateOf(a) <= DateOf(b)
  {
    DateOfBounds(a);
    DateOfBounds(b);
  }

  /** One OHLCV bar as a provider returns it: the index timestamp and the five fields. */
  datatype Quote = Quote(datetime: int, open: real, high: real, low: real, close: real, volume: int)

  /** `(symbol, index, open, high, low, close, volume)`, the 7-tuple both bar fetchers insert. */
  function BarRow(symbol: string, q: Quote): (r: Row)
    ensures |r| == |BarColumns|
  {
    [Text(symbol), Stamp(q.datetime), Float(q.open), Float(q.high), Float(q.low), Float(q.close),
     Int(q.volume)]
  }

  /** The tuples of a fetched batch, in fetch order, all for the loop's symbol. */
  function BarRows(symbol: string, quotes: seq<Quote>): (r: seq<Row>)
    ensures |r| == |quotes|
    ensures forall i :: 0 <= i < |quotes| ==> r[i] == BarRow(symbol, quotes[i])
  {
    seq(|quotes|, i requires 0 <= i < |quotes| => BarRow(symbol, quotes[i]))
  }

  /** One point of the daily SMA series: its index timestamp and the indicator value. */
  datatype SmaPoint = SmaPoint(at: int, sma: real)

  /** `(symbol, index.date(), sma)` */
  function SmaRow(symbol: string, p: SmaPoint): (r: Row)
    ensures |r| == |SmaColumns|
  {
    [Text(symbol), Day(DateOf(p.at)), Float(p.sma)]
  }

  function SmaRows(symbol: string, points: seq<SmaPoint>): (r: seq<Row>)
    ensures |r| == |points|
    ensures forall i :: 0 <= i < |points| ==> r[i] == SmaRow(symbol, points[i])
  {
    seq(|points|, i requires 0 <= i < |points| => SmaRow(symbol, points[i]))
  }

  /** Whenever the database stores a row at all, the stored key is read from the listed
      `symbol` and `datetime` values. */
  lemma RowKeyFromData(tableColumns: seq<string>, columns: seq<string>, data: Row)
    requires RowKey(tableColumns, columns, data).Some?
    ensures KeyColumns[0] in columns && KeyColumns[1] in columns
    ensures data[IndexOf(columns, KeyColumns[0])] == Text(RowKey(tableColumns, columns, data).value.0)
    ensures data[IndexOf(columns, KeyColumns[1])]
            in {Stamp(RowKey(tableColumns, columns, data).value.1),
                Day(RowKey(tableColumns, columns, data).value.1)}
  {
    var row := Arrange(tableColumns, columns, data);
    var si := IndexOf(tableColumns, KeyColumns[0]);
    var di := IndexOf(tableColumns, KeyColumns[1]);
    assert row[si] != Null && row[di] != Null;
  }

  /** Every listed key column that the table has, and every value type the key needs, is
      enough for the database to store the row under that key. */
  lemma RowKeyOfListed(tableColumns: seq<string>, columns: seq<string>, data: Row, symbol: string, at: int)
    requires Accepts(tableColumns, columns, data)
    requires KeyColumns[0] in columns && KeyColumns[1] in columns
    requires data[IndexOf(columns, KeyColumns[0])] == Text(symbol)
    requires data[IndexOf(columns, KeyColumns[1])] in {Stamp(at), Day(at)}
    ensures RowKey(tableColumns, columns, data) == Some((symbol, at))
  {
    var row := Arrange(tableColumns, columns, data);
    var si := IndexOf(tableColumns, KeyColumns[0]);
    var di := IndexOf(tableColumns, KeyColumns[1]);
    assert row[si] == Text(symbol);
  }

  lemma BarColumnsDistinct()
    ensures Distinct(BarColumns) && Distinct(SmaColumns)
    ensures IndexOf(BarColumns, KeyColumns[0]) == 0 && IndexOf(BarColumns, KeyColumns[1]) == 1
    ensures IndexOf(SmaColumns, KeyColumns[0]) == 0 && IndexOf(SmaColumns, KeyColumns[1]) == 1
  {
  }

  /** A bar tuple is stored under (symbol, bar timestamp) exactly when the table has every bar
      column; otherwise the database rejects it. */
  lemma BarRowKey(tableColumns: seq<string>, symbol: string, q: Quote)
    ensures (forall c :: c in BarColumns ==> c in tableColumns)
            <==> RowKey(tableColumns, BarColumns, BarRow(symbol, q)) == Some((symbol, q.datetime))
    ensures RowKey(tableColumns, BarColumns, BarRow(symbol, q)).Some? ==>
            RowKey(tableColumns, BarColumns, BarRow(symbol, q)) == Some((symbol, q.datetime))
  {
    BarColumnsDistinct();
    if forall c :: c in BarColumns ==> c in tableColumns {
      RowKeyOfListed(tableColumns, BarColumns, BarRow(symbol, q), symbol, q.datetime);
    }
  }

  /** An SMA tuple is stored under (symbol, calendar day of its index) exactly when the table
      has every SMA column. */
  lemma SmaRowKey(tableColumns: seq<string>, symbol: string, p: SmaPoint)
    ensures (forall c :: c in SmaColumns ==> c in tableColumns)
            <==> RowKey(tableColumns, SmaColumns, SmaRow(symbol, p)) == Some((symbol, DateOf(p.at)))
    ensures RowKey(tableColumns, SmaColumns, SmaRow(symbol, p)).Some? ==>
            RowKey(tableColumns, SmaColumns, SmaRow(symbol, p)) == Some((symbol, DateOf(p.at)))
  {
    BarColumnsDistinct();
    if forall c :: c in SmaColumns ==> c in tableColumns {
      RowKeyOfListed(tableColumns, SmaColumns, SmaRow(symbol, p), symbol, DateOf(p.at));
    }
  }
}

=== FILE: schema.dfy ===
/** Table definitions: schema names, ordered column maps and constraint lists. */
module Schema {
  import opened Wrappers
  import opened SqlText

  const RawSchema: string := "raw"
  const ProcessedSchema: string := "processed"

  /** One table: its name, its columns in declaration order (name, SQL type), and the
      constraint list passed to the DDL (`None` where no constraint constant exists). */
  datatype TableSpec = TableSpec(name: string, columns: seq<(string, string)>,
                                 constraints: Option<seq<string>>)

  /** `list(spec.keys())` */
  function ColumnNames(spec: TableSpec): (r: seq<string>)
    ensures |r| == |spec.columns|
    ensures forall i :: 0 <= i < |r| ==> r[i] == spec.columns[i].0
  {
    seq(|spec.columns|, i requires 0 <= i < |spec.columns| => spec.columns[i].0)
  }

  /** The primary key every constrained table declares. */
  const KeyColumns: seq<string> := ["symbol", "datetime"]

  function PrimaryKey(columns: seq<string>): string
  {
    "PRIMARY KEY (" + Join(columns, ", ") + ")"
  }

  const EconomicData: TableSpec := TableSpec(
    "economic_data",
    [("indicator_id", "VARCHAR(50)"), ("indicator_value", "TEXT"), ("country_id", "VARCHAR(50)"),
     ("country_value", "TEXT"), ("countryiso3code", "VARCHAR(3)"), ("date", "VARCHAR(4)"),
     ("value", "NUMERIC"), ("unit", "VARCHAR(50)"), ("obs_status", "VARCHAR(50)"),
     ("decimal", "INT")],
    None)

  const FinancialNews: TableSpec := TableSpec(
    "financial_news",
    [("company", "VARCHAR(100)"), ("title", "TEXT"), ("description", "TEXT"), ("url", "TEXT"),
     ("published_at", "TIMESTAMP WITH TIME ZONE"), ("source_name", "VARCHAR(100)")],
    None)

  const HistoricalStockData: TableSpec := TableSpec(
    "historical_stock_data",
    [("symbol", "VARCHAR(10)"), ("datetime", "TIMESTAMP WITH TIME ZONE"), ("open", "FLOAT"),
     ("high", "FLOAT"), ("low", "FLOAT"), ("close", "FLOAT"), ("volume", "BIGINT")],
    Some(["PRIMARY KEY (symbol, datetime)"]))

  const IntradayStockData: TableSpec := TableSpec(
    "intraday_stock_data",
    [("symbol", "VARCHAR(10)"), ("datetime", "TIMESTAMP WITHOUT TIME ZONE"), ("open", "FLOAT"),
     ("high", "FLOAT"), ("low", "FLOAT"), ("close", "FLOAT"), ("volume", "BIGINT")],
    Some(["PRIMARY KEY (symbol, datetime)"]))

  const StockSmaData: TableSpec := TableSpec(
    "stock_sma_data",
    [("symbol", "VARCHAR(10)"), ("datetime", "DATE"), ("sma", "FLOAT")],
    Some(["PRIMARY KEY (symbol, datetime)"]))

  /** The column list the bar fetchers pass, in the order of their 7-tuples. */
  const BarColumns: seq<string> := ["symbol", "datetime", "open", "high", "low", "close", "volume"]

  /** The column list the SMA step passes, in the order of its 3-tuples. */
  const SmaColumns: seq<string> := ["symbol", "datetime", "sma"]

  /** A table is keyed exactly when its constraint list is truthy. */
  predicate HasKey(spec: TableSpec)
  {
    GivenList(spec.constraints)
  }

  /** The three price tables carry exactly one constraint, the primary key on
      (symbol, datetime), and those two key columns lead their column lists. */
  lemma PriceTablesKeyed()
    ensures forall spec :: spec in [HistoricalStockData, IntradayStockData, StockSmaData] ==>
      && HasKey(spec)
      && spec.constraints == Some([PrimaryKey(KeyColumns)])
      && ColumnNames(spec)[..2] == KeyColumns
  {
    assert KeyColumns[1..] == ["datetime"];
    assert Join(KeyColumns, ", ") == "symbol, datetime";
    assert PrimaryKey(KeyColumns) == "PRIMARY KEY (symbol, datetime)";
    assert ColumnNames(HistoricalStockData)[..2] == KeyColumns;
    assert ColumnNames(IntradayStockData)[..2] == KeyColumns;
    assert ColumnNames(StockSmaData)[..2] == KeyColumns;
  }

  /** The SMA key column is a DATE, so its key is one row per symbol per calendar day. */
  lemma SmaKeyIsDate()
    ensures StockSmaData.columns[1] == ("datetime", "DATE")
    ensures ColumnNames(StockSmaData) == SmaColumns
  {
    assert ColumnNames(StockSmaData) == SmaColumns;
  }

  /** The news and economic tables declare no constraint, hence no uniqueness key. */
  lemma UnkeyedTables()
    ensures !HasKey(FinancialNews) && !HasKey(EconomicData)
  {
  }

  /** Both bar tables list the seven columns of the fetchers' tuples, in tuple order. */
  lemma BarTablesMatchTuples()
    ensures ColumnNames(HistoricalStockData) == BarColumns
    ensures ColumnNames(IntradayStockData) == BarColumns
    ensures |BarColumns| == 7
  {
    assert ColumnNames(HistoricalStockData) == BarColumns;
    assert ColumnNames(IntradayStockData) == BarColumns;
  }
}

=== FILE: sql_text.dfy ===
/** The SQL text that `insert_data` and `create_table_with_schema` assemble
    from identifiers, column lists and optional clauses. */
module SqlText {
  import opened Wrappers

  /** Python's `sep.join(parts)`. */
  function Join(parts: seq<string>, sep: string): string
    decreases |parts|
  {
    if |parts| == 0 then ""
    else if |parts| == 1 then parts[0]
    else parts[0] + sep + Join(parts[1..], sep)
  }

  /** Python truthiness of an optional string: present and non-empty. */
  predicate Given(clause: Option<string>)
  {
    clause.Some? && clause.value != ""
  }

  /** Python truthiness of an optional list: present and non-empty. */
  predicate GivenList(items: Option<seq<string>>)
  {
    items.Some? && |items.value| > 0
  }

  /** `[s] * n` */
  function Repeat(s: string, n: nat): (r: seq<string>)
    ensures |r| == n
    ensures forall i :: 0 <= i < n ==> r[i] == s
  {
    seq(n, _ => s)
  }

  /** One `%s` per value, joined by `, `. */
  function Placeholders(n: nat): string
  {
    Join(Repeat("%s", n), ", ")
  }

  /** `schema.table`, used by both the DDL and the INSERT. */
  function FullTableName(schema: string, table: string): string
  {
    schema + "." + table
  }

  /** The statement `insert_data` hands to the driver for a row of `arity` values. */
  function InsertStatement(schema: string, table: string, columns: seq<string>, arity: nat,
                           clause: Option<string>): (r: string)
    ensures "INSERT INTO " + FullTableName(schema, table) + " (" <= r
    ensures !Given(clause) ==> r[|r| - 1] == ')'
    ensures Given(clause) ==> |r| > |clause.value| + 1
                              && r[|r| - |clause.value| - 1..] == " " + clause.value
  {
    var base := "INSERT INTO " + FullTableName(schema, table) + " (" + Join(columns, ", ")
                + ") VALUES (" + Placeholders(arity) + ")";
    if Given(clause) then base + " " + clause.value else base
  }

  /** `"col type"` for every entry of an ordered column map. */
  function ColumnDefinitions(columns: seq<(string, string)>): (r: seq<string>)
    ensures |r| == |columns|
    ensures forall i :: 0 <= i < |columns| ==> r[i] == columns[i].0 + " " + columns[i].1
  {
    seq(|columns|, i requires 0 <= i < |columns| => columns[i].0 + " " + columns[i].1)
  }

  /** The text between the parentheses of CREATE TABLE. */
  function TableDefinition(columns: seq<(string, string)>, constraints: Option<seq<string>>): string
  {
    var columnDefs := Join(ColumnDefinitions(columns), ", ");
    if GivenList(constraints) then columnDefs + ", " + Join(constraints.value, ", ") else columnDefs
  }

  /** The DDL script `create_table_with_schema` executes. */
  function CreateTableStatement(schema: string, table: string, columns: seq<(string, string)>,
                                constraints: Option<seq<string>>): (r: string)
    ensures "CREATE SCHEMA IF NOT EXISTS " + schema + "; CREATE TABLE IF NOT EXISTS "
            + FullTableName(schema, table) + " (" <= r
    ensures |r| >= 2 && r[|r| - 2..] == ");"
  {
    "CREATE SCHEMA IF NOT EXISTS " + schema + "; CREATE TABLE IF NOT EXISTS "
    + FullTableName(schema, table) + " (" + TableDefinition(columns, constraints) + ");"
  }

  /** Number of occurrences of `c` in `s`. */
  function Count(s: string, c: char): nat
    decreases |s|
  {
    if |s| == 0 then 0 else (if s[0] == c then 1 else 0) + Count(s[1..], c)
  }

  predicate Free(s: string, c: char)
  {
    forall i :: 0 <= i < |s| ==> s[i] != c
  }

  // ---------------------------------------------------------------------------
  // Properties

  /** Joining two non-empty lists equals joining each and gluing with the separator. */
  lemma {:induction false} JoinAppend(a: seq<string>, b: seq<string>, sep: string)
    requires |a| > 0 && |b| > 0
    ensures Join(a + b, sep) == Join(a, sep) + sep + Join(b, sep)
    decreases |a|
  {
    if |a| == 1 {
      assert (a + b)[1..] == b;
    } else {
      assert (a + b)[1..] == a[1..] + b;
      JoinAppend(a[1..], b, sep);
    }
  }

  /** The placeholder list is `%s, %s, ..., %s`: character j is `"%s, "[j % 4]`,
      and the text stops right after the n-th `%s`. */
  lemma {:induction false} PlaceholdersShape(n: nat)
    ensures n == 0 ==> Placeholders(n) == ""
    ensures n > 0 ==> |Placeholders(n)| == 4 * n - 2
    ensures forall j :: 0 <= j < |Placeholders(n)| ==> Placeholders(n)[j] == "%s, "[j % 4]
  {
    if n > 1 {
      PlaceholdersShape(n - 1);
      assert Repeat("%s", n)[1..] == Repeat("%s", n - 1);
      var p := Placeholders(n);
      var q := Placeholders(n - 1);
      assert p == "%s" + ", " + q;
      forall j | 0 <= j < |p|
        ensures p[j] == "%s, "[j % 4]
      {
        if j >= 4 {
          assert p[j] == q[j - 4];
        }
      }
    }
  }

  lemma {:induction false} CountAppend(a: string, b: string, c: char)
    ensures Count(a + b, c) == Count(a, c) + Count(b, c)
    decreases |a|
  {
    if |a| > 0 {
      assert (a + b)[1..] == a[1..] + b;
      CountAppend(a[1..], b, c);
    } else {
      assert a + b == b;
    }
  }

  lemma {:induction false} CountFree(s: string, c: char)
    requires Free(s, c)
    ensures Count(s, c) == 0
    decreases |s|
  {
    if |s| > 0 {
      CountFree(s[1..], c);
    }
  }

  /** A join of parts that avoid `c`, with a separator that avoids `c`, avoids `c`. */
  lemma {:induction false} JoinFree(parts: seq<string>, sep: string, c: char)
    requires Free(sep, c)
    requires forall i :: 0 <= i < |parts| ==> Free(parts[i], c)
    ensures Free(Join(parts, sep), c)
    decreases |parts|
  {
    if |parts| > 1 {
      JoinFree(parts[1..], sep, c);
      var rest := Join(parts[1..], sep);
      assert Join(parts, sep) == parts[0] + sep + rest;
      forall i | 0 <= i < |Join(parts, sep)|
        ensures Join(parts, sep)[i] != c
      {
        if i < |parts[0]| {
          assert Join(parts, sep)[i] == parts[0][i];
        } else if i < |parts[0]| + |sep| {
          assert Join(parts, sep)[i] == sep[i - |parts[0]|];
        } else {
          assert Join(parts, sep)[i] == rest[i - |parts[0]| - |sep|];
        }
      }
    }
  }

  /** There are exactly n `%` signs among n placeholders. */
  lemma {:induction false} PlaceholderCount(n: nat)
    ensures Count(Placeholders(n), '%') == n
    decreases n
  {
    if n == 1 {
      assert Placeholders(1) == "%s";
    } else if n > 1 {
      assert Repeat("%s", n)[1..] == Repeat("%s", n - 1);
      assert Placeholders(n) == "%s, " + Placeholders(n - 1);
      CountAppend("%s, ", Placeholders(n - 1), '%');
      PlaceholderCount(n - 1);
    }
  }

  lemma FreeAppend(a: string, b: string, c: char)
    requires Free(a, c) && Free(b, c)
    ensures Free(a + b, c)
  {
    forall i | 0 <= i < |a + b|
      ensures (a + b)[i] != c
    {
      if i >= |a| {
        assert (a + b)[i] == b[i - |a|];
      }
    }
  }

  /** When no identifier, column name or clause contains `%`, the driver sees exactly
      one parameter marker per value passed in. */
  lemma InsertParameterCount(schema: string, table: string, columns: seq<string>, arity: nat,
                             clause: Option<string>)
    requires Free(schema, '%') && Free(table, '%')
    requires forall i :: 0 <= i < |columns| ==> Free(columns[i], '%')
    requires clause.Some? ==> Free(clause.value, '%')
    ensures Count(InsertStatement(schema, table, columns, arity, clause), '%') == arity
  {
    var cols := Join(columns, ", ");
    JoinFree(columns, ", ", '%');
    var full := FullTableName(schema, table);
    FreeAppend(schema, ".", '%');
    FreeAppend(schema + ".", table, '%');
    var a := "INSERT INTO " + full;
    FreeAppend("INSERT INTO ", full, '%');
    FreeAppend(a, " (", '%');
    FreeAppend(a + " (", cols, '%');
    var pre := a + " (" + cols + ") VALUES (";
    FreeAppend(a + " (" + cols, ") VALUES (", '%');
    CountFree(pre, '%');
    PlaceholderCount(arity);
    CountAppend(pre, Placeholders(arity), '%');
    CountFree(")", '%');
    CountAppend(pre + Placeholders(arity), ")", '%');
    var base := pre + Placeholders(arity) + ")";
    assert Count(base, '%') == arity;
    if Given(clause) {
      CountFree(" ", '%');
      CountFree(clause.value, '%');
      CountAppend(base, " ", '%');
      CountAppend(base + " ", clause.value, '%');
    }
  }

  /** The conflict clause is appended after one space exactly when it is given;
      a missing or empty clause leaves the statement as it was. */
  lemma ConflictClauseAppended(schema: string, table: string, columns: seq<string>, arity: nat,
                               clause: string)
    ensures clause != "" ==>
      InsertStatement(schema, table, columns, arity, Some(clause))
      == InsertStatement(schema, table, columns, arity, None) + " " + clause
    ensures clause == "" ==>
      InsertStatement(schema, table, columns, arity, Some(clause))
      == InsertStatement(schema, table, columns, arity, None)
  {
  }

  /** Constraints are simply more comma-separated items after the column definitions;
      without constraints only the column definitions remain. */
  lemma TableDefinitionItems(columns: seq<(string, string)>, constraints: Option<seq<string>>)
    requires |columns| > 0
    ensures GivenList(constraints) ==>
      TableDefinition(columns, constraints)
      == Join(ColumnDefinitions(columns) + constraints.value, ", ")
    ensures !GivenList(constraints) ==>
      TableDefinition(columns, constraints) == Join(ColumnDefinitions(columns), ", ")
  {
    if GivenList(constraints) {
      JoinAppend(ColumnDefinitions(columns), constraints.value, ", ");
    }
  }
}

=== FILE: store.dfy ===
/** The relational store as the scripts see it through `insert_data`, `execute_select`
    and `create_table_with_schema`: tables of rows, a primary key on (symbol, datetime)
    for the price tables, and insert-or-ignore writes whose errors are swallowed. */
module Store {
  import opened Wrappers
  import opened SqlText
  import opened Schema

  /** One SQL value as the driver passes it. Prices are opaque: nothing computes with them. */
  datatype Value =
    | Text(s: string)
    | Stamp(t: int)     // a timestamp, in seconds
    | Day(d: int)       // a calendar date, as a day number
    | Float(x: real)
    | Int(i: int)
    | Null

  type Row = seq<Value>

  /** The primary key of the price tables: (symbol, datetime). */
  type Key = (string, int)

  /** A table with the primary key (symbol, datetime) holds at most one row per key;
      a table without constraints is a plain list of rows in insertion order. */
  datatype Table =
    | Keyed(columns: seq<string>, entries: map<Key, Row>)
    | Heap(columns: seq<string>, rows: seq<Row>)

  /** Why the database rejected an INSERT (the error `insert_data` logs and swallows). */
  datatype InsertError =
    | ArityMismatch     // more or fewer values than listed columns
    | UnknownColumn     // a listed column the table does not have
    | DuplicateColumn   // a column listed twice
    | MissingKey        // a NULL or ill-typed primary-key column
    | KeyViolation      // the key already exists and no conflict clause was given

  /** `Inserted` is `rowcount > 0`; `Ignored` is `rowcount == 0` under ON CONFLICT DO NOTHING. */
  datatype Outcome = Inserted | Ignored | Failed(reason: InsertError)

  predicate Distinct(xs: seq<string>)
  {
    forall i, j :: 0 <= i < j < |xs| ==> xs[i] != xs[j]
  }

  function IndexOf(xs: seq<string>, x: string): (i: nat)
    requires x in xs
    ensures i < |xs| && xs[i] == x
    ensures forall j :: 0 <= j < i ==> xs[j] != x
  {
    if xs[0] == x then 0 else 1 + IndexOf(xs[1..], x)
  }

  /** The database accepts the column list and the values of an INSERT. */
  predicate Accepts(tableColumns: seq<string>, columns: seq<string>, data: Row)
  {
    && |columns| == |data|
    && (forall c :: c in columns ==> c in tableColumns)
    && Distinct(columns)
  }

  /** The row as stored: each table column takes the value listed under its name, or NULL. */
  function Arrange(tableColumns: seq<string>, columns: seq<string>, data: Row): (r: Row)
    requires |columns| == |data|
    ensures |r| == |tableColumns|
    ensures forall i :: 0 <= i < |tableColumns| && tableColumns[i] !in columns ==> r[i] == Null
  {
    seq(|tableColumns|, i requires 0 <= i < |tableColumns| =>
      if tableColumns[i] in columns then data[IndexOf(columns, tableColumns[i])] else Null)
  }

  /** Every row of a batch, as stored. */
  function ArrangeAll(tableColumns: seq<string>, columns: seq<string>, rows: seq<Row>): (r: seq<Row>)
    requires forall i :: 0 <= i < |rows| ==> |columns| == |rows[i]|
    ensures |r| == |rows|
    ensures forall i :: 0 <= i < |rows| ==> r[i] == Arrange(tableColumns, columns, rows[i])
    decreases |rows|
  {
    if |rows| == 0 then []
    else [Arrange(tableColumns, columns, rows[0])] + ArrangeAll(tableColumns, columns, rows[1..])
  }

  /** The (symbol, datetime) key of a stored row, if both columns exist and hold a text
      and a timestamp or date. */
  function KeyOf(tableColumns: seq<string>, row: Row): Option<Key>
  {
    if KeyColumns[0] in tableColumns && KeyColumns[1] in tableColumns && |row| == |tableColumns| then
      match (row[IndexOf(tableColumns, KeyColumns[0])], row[IndexOf(tableColumns, KeyColumns[1])])
      case (Text(s), Stamp(t)) => Some((s, t))
      case (Text(s), Day(d)) => Some((s, d))
      case _ => None
    else None
  }

  /** The key an INSERT of `data` under `columns` would store, if the database accepts it. */
  function RowKey(tableColumns: seq<string>, columns: seq<string>, data: Row): Option<Key>
  {
    if Accepts(tableColumns, columns, data) then KeyOf(tableColumns, Arrange(tableColumns, columns, data))
    else None
  }

  /** `insert_data` against one table: the store after the statement, and what happened.
      The conflict clause only decides between `Ignored` and a swallowed `KeyViolation`. */
  function Insert(t: Table, columns: seq<string>, data: Row, clause: Option<string>): (r: (Table, Outcome))
    ensures !r.1.Inserted? ==> r.0 == t
    ensures r.0.columns == t.columns && r.0.Keyed? == t.Keyed?
    ensures !Accepts(t.columns, columns, data) ==> r.1.Failed?
    ensures t.Keyed? ==>
      (r.1.Inserted? <==> RowKey(t.columns, columns, data).Some?
                          && RowKey(t.columns, columns, data).value !in t.entries)
    ensures t.Keyed? && r.1.Inserted? ==>
      r.0.entries == t.entries[RowKey(t.columns, columns, data).value
                                 := Arrange(t.columns, columns, data)]
    ensures t.Keyed? && RowKey(t.columns, columns, data).Some?
            && RowKey(t.columns, columns, data).value in t.entries ==>
      r.1 == (if Given(clause) then Ignored else Failed(KeyViolation))
    ensures t.Heap? && Accepts(t.columns, columns, data) ==>
      r.1.Inserted? && r.0.rows == t.rows + [Arrange(t.columns, columns, data)]
  {
    if |columns| != |data| then (t, Failed(ArityMismatch))
    else if !(forall c :: c in columns ==> c in t.columns) then (t, Failed(UnknownColumn))
    else if !Distinct(columns) then (t, Failed(DuplicateColumn))
    else
      var row := Arrange(t.columns, columns, data);
      match t
      case Heap(cols, rows) => (Heap(cols, rows + [row]), Inserted)
      case Keyed(cols, entries) =>
        match KeyOf(cols, row)
        case None => (t, Failed(MissingKey))
        case Some(k) =>
          if k in entries then (t, if Given(clause) then Ignored else Failed(KeyViolation))
          else (Keyed(cols, entries[k := row]), Inserted)
  }

  /** Every row of a keyed table sits under the key its own symbol and datetime columns
      give, so reading the map keys and reading the column values agree. */
  predicate WellKeyed(t: Table)
  {
    t.Keyed? ==> forall k :: k in t.entries ==> KeyOf(t.columns, t.entries[k]) == Some(k)
  }

  /** A single insert keeps every row under its own key. */
  lemma InsertWellKeyed(t: Table, columns: seq<string>, data: Row, clause: Option<string>)
    requires WellKeyed(t)
    ensures WellKeyed(Insert(t, columns, data, clause).0)
  {
    var r := Insert(t, columns, data, clause);
    if t.Keyed? && r.1.Inserted? {
      var k := RowKey(t.columns, columns, data).value;
      assert KeyOf(t.columns, Arrange(t.columns, columns, data)) == Some(k);
      forall k' | k' in r.0.entries
        ensures KeyOf(r.0.columns, r.0.entries[k']) == Some(k')
      {
        if k' != k {
          assert r.0.entries[k'] == t.entries[k'];
        }
      }
    }
  }

  // ---------------------------------------------------------------------------
  // Watermark: SELECT MAX(datetime) ... WHERE symbol = %s

  /** The keys of the rows a table currently holds. */
  function StoredKeys(t: Table): set<Key>
  {
    match t
    case Keyed(_, entries) => entries.Keys
    case Heap(cols, rows) => set r | r in rows && KeyOf(cols, r).Some? :: KeyOf(cols, r).value
  }

  /** The datetimes stored for one symbol. */
  function Datetimes(t: Table, symbol: string): set<int>
  {
    set k | k in StoredKeys(t) && k.0 == symbol :: k.1
  }

  /** `m` is the largest element of `s`. */
  predicate IsMax(s: set<int>, m: int)
  {
    m in s && forall x :: x in s ==> x <= m
  }

  lemma {:induction false} MaxExists(s: set<int>)
    requires s != {}
    ensures exists m :: IsMax(s, m)
    decreases |s|
  {
    if forall x :: x !in s {
      assert false;
    }
    var y :| y in s;
    if s == {y} {
      assert IsMax(s, y);
    } else {
      MaxExists(s - {y});
      var m :| IsMax(s - {y}, m);
      var top := if y > m then y else m;
      forall x | x in s
        ensures x <= top
      {
        if x != y {
          assert x in s - {y};
        }
      }
      assert IsMax(s, top);
    }
  }

  function MaxOf(s: set<int>): (m: int)
    requires s != {}
    ensures m in s
    ensures forall x :: x in s ==> x <= m
  {
    MaxExists(s);
    var m :| IsMax(s, m);
    m
  }

  /** The latest stored datetime of a symbol, or `None` when it has no row at all. */
  function Watermark(t: Table, symbol: string): (w: Option<int>)
    ensures w.None? <==> (forall k :: k in StoredKeys(t) ==> k.0 != symbol)
    ensures w.Some? ==> (symbol, w.value) in StoredKeys(t)
    ensures w.Some? ==> forall k :: k in StoredKeys(t) && k.0 == symbol ==> k.1 <= w.value
  {
    var ds := Datetimes(t, symbol);
    assert forall k :: k in StoredKeys(t) && k.0 == symbol ==> k.1 in ds;
    if ds == {} then None else Some(MaxOf(ds))
  }

  /** `a` is at least `b` when `None` is read as below every datetime. */
  predicate AtLeast(a: Option<int>, b: Option<int>)
  {
    b.None? || (a.Some? && a.value >= b.value)
  }

  /** A store that only gained keys has no lower watermark for any symbol. */
  lemma WatermarkMonotone(t: Table, t': Table, symbol: string)
    requires StoredKeys(t) <= StoredKeys(t')
    ensures AtLeast(Watermark(t', symbol), Watermark(t, symbol))
  {
    var w := Watermark(t, symbol);
    if w.Some? {
      assert (symbol, w.value) in StoredKeys(t');
    }
  }

  // ---------------------------------------------------------------------------
  // Extension: the store after a write holds everything it held before

  /** `t'` holds every row of `t` unchanged: keyed rows keep their key and contents,
      heap rows stay in place at the front. */
  predicate Extends(t: Table, t': Table)
  {
    && t'.columns == t.columns
    && t'.Keyed? == t.Keyed?
    && (t.Keyed? ==> forall k :: k in t.entries ==> k in t'.entries && t'.entries[k] == t.entries[k])
    && (t.Heap? ==> t.rows <= t'.rows)
  }

  lemma ExtendsStoredKeys(t: Table, t': Table)
    requires Extends(t, t')
    ensures StoredKeys(t) <= StoredKeys(t')
  {
    if t.Heap? {
      forall k | k in StoredKeys(t) ensures k in StoredKeys(t') {
        var r :| r in t.rows && KeyOf(t.columns, r) == Some(k);
        assert r in t'.rows;
      }
    }
  }

  lemma ExtendsTransitive(t1: Table, t2: Table, t3: Table)
    requires Extends(t1, t2) && Extends(t2, t3)
    ensures Extends(t1, t3)
  {
    if t1.Heap? {
      assert t1.rows == t2.rows[..|t1.rows|];
      assert t2.rows == t3.rows[..|t2.rows|];
    }
  }

  /** An INSERT never overwrites or removes a stored row, and never lowers a watermark. */
  lemma InsertExtends(t: Table, columns: seq<string>, data: Row, clause: Option<string>, symbol: string)
    ensures Extends(t, Insert(t, columns, data, clause).0)
    ensures AtLeast(Watermark(Insert(t, columns, data, clause).0, symbol), Watermark(t, symbol))
  {
    var t' := Insert(t, columns, data, clause).0;
    ExtendsStoredKeys(t, t');
    WatermarkMonotone(t, t', symbol);
  }

  /** Insert-or-ignore on a keyed table: offering the same row twice leaves the store as
      offering it once. */
  lemma InsertIdempotent(t: Table, columns: seq<string>, data: Row, clause: Option<string>)
    requires t.Keyed?
    ensures var once := Insert(t, columns, data, clause).0;
            Insert(once, columns, data, clause).0 == once
  {
  }

  /** ON CONFLICT DO NOTHING changes what is logged, never the store: without it the
      duplicate raises and the error is swallowed. */
  lemma ClauseIrrelevant(t: Table, columns: seq<string>, data: Row, a: Option<string>, b: Option<string>)
    ensures Insert(t, columns, data, a).0 == Insert(t, columns, data, b).0
  {
  }

  /** Rows listed in the table's own column order are stored exactly as given. */
  lemma ArrangeIdentity(columns: seq<string>, data: Row)
    requires |columns| == |data| && Distinct(columns)
    ensures Arrange(columns, columns, data) == data
  {
    forall i | 0 <= i < |columns|
      ensures Arrange(columns, columns, data)[i] == data[i]
    {
      assert IndexOf(columns, columns[i]) == i;
    }
  }

  // ---------------------------------------------------------------------------
  // Offering a batch of rows, one insert_data call each

  function Gain(o: Outcome): nat
  {
    if o.Inserted? then 1 else 0
  }

  /** Offers `rows` in order; returns the store and the number of rows actually inserted. */
  function OfferAll(t: Table, columns: seq<string>, rows: seq<Row>, clause: Option<string>): (r: (Table, nat))
    ensures r.1 <= |rows|
    ensures Extends(t, r.0)
    ensures t.Keyed? ==> |r.0.entries| == |t.entries| + r.1
    decreases |rows|
  {
    if |rows| == 0 then (t, 0)
    else
      var step := Insert(t, columns, rows[0], clause);
      var tail := OfferAll(step.0, columns, rows[1..], clause);
      ExtendsTransitive(t, step.0, tail.0);
      (tail.0, tail.1 + Gain(step.1))
  }

  /** Every offered row the database accepts is, afterwards, present under its key. */
  lemma {:induction false} OfferAllCovers(t: Table, columns: seq<string>, rows: seq<Row>, clause: Option<string>)
    requires t.Keyed?
    ensures forall i :: 0 <= i < |rows| && RowKey(t.columns, columns, rows[i]).Some? ==>
      RowKey(t.columns, columns, rows[i]).value in OfferAll(t, columns, rows, clause).0.entries
    decreases |rows|
  {
    if |rows| > 0 {
      var t1 := Insert(t, columns, rows[0], clause).0;
      OfferAllCovers(t1, columns, rows[1..], clause);
      var r := OfferAll(t, columns, rows, clause).0;
      forall i | 0 <= i < |rows| && RowKey(t.columns, columns, rows[i]).Some?
        ensures RowKey(t.columns, columns, rows[i]).value in r.entries
      {
        if i > 0 {
          assert rows[i] == rows[1..][i - 1];
        }
      }
    }
  }

  /** Every key the batch adds is the key of one of the offered rows. */
  lemma {:induction false} OfferAllNewKeys(t: Table, columns: seq<string>, rows: seq<Row>, clause: Option<string>)
    requires t.Keyed?
    ensures forall k :: k in OfferAll(t, columns, rows, clause).0.entries && k !in t.entries ==>
      exists i :: 0 <= i < |rows| && RowKey(t.columns, columns, rows[i]) == Some(k)
    decreases |rows|
  {
    if |rows| > 0 {
      var t1 := Insert(t, columns, rows[0], clause).0;
      OfferAllNewKeys(t1, columns, rows[1..], clause);
      var r := OfferAll(t, columns, rows, clause).0;
      forall k | k in r.entries && k !in t.entries
        ensures exists i :: 0 <= i < |rows| && RowKey(t.columns, columns, rows[i]) == Some(k)
      {
        if k in t1.entries {
          assert RowKey(t.columns, columns, rows[0]) == Some(k);
        } else {
          var i :| 0 <= i < |rows[1..]| && RowKey(t1.columns, columns, rows[1..][i]) == Some(k);
          assert rows[i + 1] == rows[1..][i];
        }
      }
    }
  }

  /** `i` is the first offered row the database would store under `k`. */
  predicate FirstWithKey(tableColumns: seq<string>, columns: seq<string>, rows: seq<Row>, k: Key, i: int)
  {
    && 0 <= i < |rows|
    && RowKey(tableColumns, columns, rows[i]) == Some(k)
    && forall j :: 0 <= j < i ==> RowKey(tableColumns, columns, rows[j]) != Some(k)
  }

  /** The first insert of a batch, when it adds `k`, makes row 0 the first with that key. */
  lemma FirstWithKeyHead(t: Table, columns: seq<string>, rows: seq<Row>, clause: Option<string>, k: Key)
    requires t.Keyed? && |rows| > 0
    requires k in Insert(t, columns, rows[0], clause).0.entries && k !in t.entries
    ensures FirstWithKey(t.columns, columns, rows, k, 0)
    ensures Insert(t, columns, rows[0], clause).0.entries[k] == Arrange(t.columns, columns, rows[0])
  {
  }

  /** A first match in the tail is a first match in the whole batch when row 0 has another key. */
  lemma FirstWithKeyTail(tableColumns: seq<string>, columns: seq<string>, rows: seq<Row>, k: Key, i: int)
    requires |rows| > 0 && FirstWithKey(tableColumns, columns, rows[1..], k, i)
    requires RowKey(tableColumns, columns, rows[0]) != Some(k)
    ensures FirstWithKey(tableColumns, columns, rows, k, i + 1) && rows[i + 1] == rows[1..][i]
  {
    forall j | 0 < j < i + 1
      ensures RowKey(tableColumns, columns, rows[j]) != Some(k)
    {
      assert rows[j] == rows[1..][j - 1];
    }
  }

  /** A key the batch adds holds the row of the first offered row with that key, as
      arranged into the table's columns; later rows with the same key are ignored. */
  lemma {:induction false} OfferAllStoresRow(t: Table, columns: seq<string>, rows: seq<Row>, clause: Option<string>)
    requires t.Keyed?
    ensures var r := OfferAll(t, columns, rows, clause).0;
      forall k :: k in r.entries && k !in t.entries ==>
        exists i :: FirstWithKey(t.columns, columns, rows, k, i)
                    && r.entries[k] == Arrange(t.columns, columns, rows[i])
    decreases |rows|
  {
    if |rows| > 0 {
      var t1 := Insert(t, columns, rows[0], clause).0;
      var r := OfferAll(t, columns, rows, clause).0;
      OfferAllUnfold(t, columns, rows, clause);
      OfferAllStoresRow(t1, columns, rows[1..], clause);
      forall k | k in r.entries && k !in t.entries
        ensures exists i :: FirstWithKey(t.columns, columns, rows, k, i)
                            && r.entries[k] == Arrange(t.columns, columns, rows[i])
      {
        if k in t1.entries {
          FirstWithKeyHead(t, columns, rows, clause, k);
          assert r.entries[k] == t1.entries[k];
        } else {
          var i :| FirstWithKey(t1.columns, columns, rows[1..], k, i)
                   && r.entries[k] == Arrange(t1.columns, columns, rows[1..][i]);
          FirstWithKeyTail(t.columns, columns, rows, k, i);
        }
      }
    }
  }

  /** A batch whose every accepted row is already present changes nothing. */
  lemma {:induction false} OfferAllPresent(t: Table, columns: seq<string>, rows: seq<Row>, clause: Option<string>)
    requires t.Keyed?
    requires forall i :: 0 <= i < |rows| && RowKey(t.columns, columns, rows[i]).Some? ==>
      RowKey(t.columns, columns, rows[i]).value in t.entries
    ensures OfferAll(t, columns, rows, clause).0 == t
    decreases |rows|
  {
    if |rows| > 0 {
      assert Insert(t, columns, rows[0], clause).0 == t;
      forall i | 0 <= i < |rows[1..]| && RowKey(t.columns, columns, rows[1..][i]).Some?
        ensures RowKey(t.columns, columns, rows[1..][i]).value in t.entries
      {
        assert rows[1..][i] == rows[i + 1];
      }
      OfferAllPresent(t, columns, rows[1..], clause);
    }
  }

  /** Re-running a batch over a keyed table adds nothing: the whole write is idempotent. */
  lemma OfferAllIdempotent(t: Table, columns: seq<string>, rows: seq<Row>, clause: Option<string>)
    requires t.Keyed?
    ensures var once := OfferAll(t, columns, rows, clause).0;
            OfferAll(once, columns, rows, clause).0 == once
  {
    var once := OfferAll(t, columns, rows, clause).0;
    OfferAllCovers(t, columns, rows, clause);
    OfferAllPresent(once, columns, rows, clause);
  }

  /** Against a keyed table the batch's effect does not depend on the conflict clause. */
  lemma {:induction false} OfferAllClauseIrrelevant(t: Table, columns: seq<string>, rows: seq<Row>,
                                                    a: Option<string>, b: Option<string>)
    ensures OfferAll(t, columns, rows, a) == OfferAll(t, columns, rows, b)
    decreases |rows|
  {
    if |rows| > 0 {
      var t1 := Insert(t, columns, rows[0], a).0;
      ClauseIrrelevant(t, columns, rows[0], a, b);
      OfferAllClauseIrrelevant(t1, columns, rows[1..], a, b);
    }
  }

  /** A batch of inserts keeps every row under its own key. */
  lemma {:induction false} OfferAllWellKeyed(t: Table, columns: seq<string>, rows: seq<Row>, clause: Option<string>)
    requires WellKeyed(t)
    ensures WellKeyed(OfferAll(t, columns, rows, clause).0)
    decreases |rows|
  {
    if |rows| > 0 {
      var t1 := Insert(t, columns, rows[0], clause).0;
      InsertWellKeyed(t, columns, rows[0], clause);
      OfferAllWellKeyed(t1, columns, rows[1..], clause);
    }
  }

  /** A non-empty batch is its first insert followed by the rest of the batch. */
  lemma OfferAllUnfold(t: Table, columns: seq<string>, rows: seq<Row>, clause: Option<string>)
    requires |rows| > 0
    ensures OfferAll(t, columns, rows, clause).0
            == OfferAll(Insert(t, columns, rows[0], clause).0, columns, rows[1..], clause).0
    ensures OfferAll(t, columns, rows, clause).1
            == OfferAll(Insert(t, columns, rows[0], clause).0, columns, rows[1..], clause).1
               + Gain(Insert(t, columns, rows[0], clause).1)
  {
  }

  /** One accepted insert into a table without constraints appends the arranged row. */
  lemma HeapInsertStep(t: Table, columns: seq<string>, data: Row, clause: Option<string>)
    requires t.Heap? && Accepts(t.columns, columns, data)
    ensures Insert(t, columns, data, clause) == (Heap(t.columns, t.rows + [Arrange(t.columns, columns, data)]), Inserted)
  {
  }

  lemma ArrangeAllCons(tableColumns: seq<string>, columns: seq<string>, rows: seq<Row>)
    requires |rows| > 0
    requires forall i :: 0 <= i < |rows| ==> |columns| == |rows[i]|
    ensures ArrangeAll(tableColumns, columns, rows)
            == [Arrange(tableColumns, columns, rows[0])] + ArrangeAll(tableColumns, columns, rows[1..])
  {
  }

  lemma AppendAssoc<T>(a: seq<T>, b: seq<T>, c: seq<T>)
    ensures a + b + c == a + (b + c)
  {
  }

  /** Against a table without constraints every accepted row is appended, in order. */
  lemma {:induction false} OfferAllAppends(t: Table, columns: seq<string>, rows: seq<Row>, clause: Option<string>)
    requires t.Heap?
    requires forall i :: 0 <= i < |rows| ==> |columns| == |rows[i]|
    requires forall i :: 0 <= i < |rows| ==> Accepts(t.columns, columns, rows[i])
    ensures OfferAll(t, columns, rows, clause).0.rows == t.rows + ArrangeAll(t.columns, columns, rows)
    ensures OfferAll(t, columns, rows, clause).1 == |rows|
    decreases |rows|
  {
    if |rows| > 0 {
      var rest := rows[1..];
      var head := Arrange(t.columns, columns, rows[0]);
      var t1 := Heap(t.columns, t.rows + [head]);
      HeapInsertStep(t, columns, rows[0], clause);
      OfferAllUnfold(t, columns, rows, clause);
      assert forall i :: 0 <= i < |rest| ==> rest[i] == rows[i + 1];
      OfferAllAppends(t1, columns, rest, clause);
      ArrangeAllCons(t.columns, columns, rows);
      AppendAssoc(t.rows, [head], ArrangeAll(t.columns, columns, rest));
    }
  }

  // ---------------------------------------------------------------------------
  // DDL: CREATE SCHEMA IF NOT EXISTS ...; CREATE TABLE IF NOT EXISTS ...

  datatype Catalog = Catalog(schemas: set<string>, tables: map<(string, string), Table>)

  /** A freshly created, empty table of a given definition. */
  function EmptyTable(spec: TableSpec): (t: Table)
    ensures t.columns == ColumnNames(spec)
    ensures t.Keyed? <==> HasKey(spec)
    ensures StoredKeys(t) == {}
    ensures WellKeyed(t)
  {
    if HasKey(spec) then Keyed(ColumnNames(spec), map[]) else Heap(ColumnNames(spec), [])
  }

  /** Running `create_table_with_schema`: the schema and the table exist afterwards; an
      existing table, with its rows, is left as it was. */
  function CreateTable(c: Catalog, schema: string, spec: TableSpec): (r: Catalog)
    ensures schema in r.schemas && (schema, spec.name) in r.tables
    ensures r.schemas == c.schemas + {schema}
    ensures forall key :: key in c.tables ==> key in r.tables && r.tables[key] == c.tables[key]
    ensures forall key :: key in r.tables && key !in c.tables ==>
      key == (schema, spec.name) && r.tables[key] == EmptyTable(spec)
  {
    var key := (schema, spec.name);
    Catalog(c.schemas + {schema}, if key in c.tables then c.tables else c.tables[key := EmptyTable(spec)])
  }

  /** Re-running the DDL on an existing table leaves the store unchanged. */
  lemma CreateTableIdempotent(c: Catalog, schema: string, spec: TableSpec)
    ensures CreateTable(CreateTable(c, schema, spec), schema, spec) == CreateTable(c, schema, spec)
  {
  }
}

=== FILE: wrappers.dfy ===
/** `Option` and `Result`, shared by the whole model. */
module Wrappers {

  /** Python's `None` versus a present value. */
  datatype Option<+T> = None | Some(value: T)

  /** A provider call either returns data or raises. */
  datatype Result<+R, +E> = Success(value: R) | Failure(error: E)
}
